=== FILE: README.md ===
# Python quiz: session model

A Dafny model of the core of a small browser-based Python quiz. The learner
works through an unbounded sequence of levels. Levels 1 to 5 come from a fixed
table of questions. Every later level is produced by one of five generators:
a sum of multiples of 3, a square of stars, the floored mean of a list, a
reversed and upper-cased word, and a count of the even numbers in a range.

Each question the learner has met is kept in a review history. An entry pairs
the question with the learner's progress on it: solved flag, hints asked for,
failed attempts and typed code. A cursor selects the entry on screen. The page
keeps a working copy of that entry's progress, and every action writes the
copy back into the history. The session is written to a progress file after
every change and read back on the next visit.

A submission runs the question's preset code, a newline and the learner's
code. It is correct when the printed output, stripped of surrounding
whitespace, equals the expected text exactly. The third failed attempt in a
row (`ERROR_LIMIT = 3`) reveals the solution and marks the question solved, so
the learner can move on, except after the dead end listed under Left out,
which only a browser reload gets past.

Modules, in dependency order:

- `Wrappers`: `Option` and `Result`.
- `Text`: Python's `str.strip`, decimal numerals, `join`/`split`, slicing
  reversal and ASCII upper-casing.
- `Exercises`: the question record, the progress record and a history entry.
- `Evaluator`: the program that is run and the verdict on what it printed.
- `QuestionBank`: the fixed table, the five generators and the level dispatch.
- `Controller`: the session and its transitions (write-back, load, advance,
  previous, next, mark solved, redo, hint, edit, submit).
- `Display`: which controls are offered, and which hints are shown.
- `Machine`: the session as a state machine over clicks, together with the
  page the last run of the script drew, with its invariant and forced
  progress.
- `Persistence`: the saved document and the start of a visit.
- `Scenarios`: worked examples on the level-1 apple-price question and on
  navigation through a three-entry history.

Python's interpreter is not modelled. What running a program did is a
parameter `run: string -> ExecOutcome`: a syntax error, a runtime error, the
text printed, or an escape: something neither handler catches (`exit()`,
`sys.exit()`, an error from `ast.parse` other than a `SyntaxError`) or an
endless loop. The random draws are parameters too (`Draw`), constrained
by `ValidDraw` to the values the random calls can produce. Reading and writing
the progress file are modelled by a document value, `SavedDoc`.

## Model

| member | source | states |
|---|---|---|
| Text.LStripSpec | app.py.py:550 | the left-stripped text is a suffix of the input, everything dropped is whitespace, and it does not start with whitespace |
| Text.RStripSpec | app.py.py:550 | the right-stripped text is a prefix of the input, everything dropped is whitespace, and it does not end with whitespace |
| Text.Strip | app.py.py:550 | the stripped text is no longer than the input and has no whitespace at either end (Python's `str.isspace` set) |
| Text.StripUnique | app.py.py:550 | whitespace, then a core with no whitespace at its ends, then whitespace, strips to exactly that core |
| Text.StripCore | app.py.py:550 | conversely, every text is some whitespace, its stripped form, and some whitespace, in that order |
| Text.StripIdempotent | app.py.py:550 | stripping stripped output changes nothing |
| Text.StripIgnoresPadding | app.py.py:550 | whitespace added before and after the output is removed again by stripping |
| Text.NatToStringRoundTrip | app.py.py:259 | the decimal text written for a count or sum parses back to the same number |
| Text.NatToStringInjective | app.py.py:259 | different numbers give different expected texts |
| Text.CanonicalIsStr | app.py.py:259 | a numeral with at least one digit and no leading zero (other than "0" itself) is exactly the text `str` writes for its value |
| Text.SplitJoin | app.py.py:270 | joining lines with a newline and splitting them again gives back the lines, provided every line is non-empty and has no newline |
| Text.JoinSplit | app.py.py:270 | splitting a text at newlines and joining the pieces gives back the text |
| Text.ReverseInvolutive | app.py.py:318 | reversing a word twice gives the word back |
| Text.LowerUndoesUpper | app.py.py:318 | lower-casing an upper-cased lower-case word gives the word back |
| Text.UpperReverseCommute | app.py.py:318 | reversing and then upper-casing is the same as upper-casing and then reversing |
| Exercises.NewEntry | app.py.py:384-396 | a new history entry holds the question with progress not solved, no hints, no errors and empty code |
| Evaluator.FullCode | app.py.py:519 | the program run is the preset code, one newline, then the learner's code, in that order and nothing else |
| Evaluator.Judge | app.py.py:519-597 | correct exactly when the program ran and its stripped output equals the expected text; a syntax error, a runtime error and an escape past both handlers map to their own outcomes; any other output is a mismatch carrying the stripped output |
| Evaluator.AnswerableIff | app.py.py:550-552 | some printed output is judged correct if and only if the expected text has no whitespace at its ends |
| Evaluator.JudgeIgnoresPadding | app.py.py:550-552 | whitespace printed before or after the answer never changes the verdict |
| QuestionBank.SumOfMultiplesClosedForm | app.py.py:245 | twice the sum of the multiples of 3 up to the limit is 3·k·(k+1), where k is the limit divided by 3 |
| QuestionBank.StaticQuestions | app.py.py:217-235 | levels 1 and 2 have two fixed questions, levels 3 to 5 one, every other level none |
| QuestionBank.StaticAnswerable | app.py.py:217-235 | every fixed question can be answered by printing its expected text |
| QuestionBank.SumQuestion | app.py.py:239-262 | the generated sum question can be answered by printing its expected text |
| QuestionBank.SumQuestionExpected | app.py.py:239-262 | the expected text of the sum question is `str` of the sum of the multiples of 3 from 1 to the limit `(level-5)*4+10`: a numeral without leading zeros whose value is that sum; it is "0" when the limit is below 3 |
| QuestionBank.SquareQuestionRows | app.py.py:264-285 | the expected text of the square question splits at newlines into `size` rows of `size` stars each, with `size = level-2`; it is empty when the size is below 1 |
| QuestionBank.SquareQuestion | app.py.py:264-285 | the generated square question can be answered by printing its expected text |
| QuestionBank.SumOfBounds | app.py.py:293 | the sum of a list whose values lie in a range is bounded by the length times each end of the range |
| QuestionBank.FlooredMeanBounds | app.py.py:293 | the floored mean m of a non-empty list satisfies m·len ≤ sum < (m+1)·len and lies in the range of the values |
| QuestionBank.AverageQuestionExpected | app.py.py:287-311 | the expected text of the average question is `str` of the integer part of the mean of the drawn numbers: a numeral without leading zeros, between 5 and 15 |
| QuestionBank.AverageQuestion | app.py.py:287-311 | the generated average question can be answered by printing its expected text |
| QuestionBank.ReverseQuestionExpected | app.py.py:313-335 | for any lower-case word, the expected text of the reverse question has the word's length, is all upper case, and lower-casing and reversing it gives back the word |
| QuestionBank.ReverseQuestion | app.py.py:313-335 | for a non-empty lower-case word, the generated reverse question can be answered by printing its expected text |
| QuestionBank.CountQualifying | app.py.py:345 | the number of qualifying values never exceeds the length of the list |
| QuestionBank.QualifiesIffOneOfTwo | app.py.py:345 | strictly between `lower` and `lower+5` and even holds exactly for the two even numbers after `lower` |
| QuestionBank.CountIsOccurrences | app.py.py:345 | the count of qualifying values equals the number of occurrences of those two even numbers in the list |
| QuestionBank.FilterQuestionExpected | app.py.py:337-365 | the expected text of the filter question is `str` of that count: a numeral without leading zeros, at most the list length `7 + level/4` |
| QuestionBank.FilterQuestion | app.py.py:337-365 | the generated filter question can be answered by printing its expected text |
| QuestionBank.Generate | app.py.py:374-382 | every generated question can be answered by printing its expected text |
| QuestionBank.GetQuestion | app.py.py:368-382 | levels 1 to 5 give the drawn entry of that level's table, later levels the question of the drawn generator; every question returned is answerable |
| Controller.Save | app.py.py:54-66 | the write-back changes only the entry under the cursor, whose question stays and whose progress becomes the working copy, with the code replaced when one is given; an empty history is left alone |
| Controller.Load | app.py.py:69-81 | loading makes the working copy agree with the entry under the cursor and changes nothing else |
| Controller.SaveSyncedIsIdentity | app.py.py:54-81 | writing back a working copy that agrees with the history leaves the session unchanged |
| Controller.Advance | app.py.py:104-115 | the cursor moves forward one; at the end of the history the level rises by one and one untouched entry for the new question is appended, otherwise level and length stay; the older entries are the write-back of the session left |
| Controller.Previous | app.py.py:116-121 | the cursor moves back one over the written-back history, and the working copy is loaded from the new entry |
| Controller.Next | app.py.py:123-128 | the cursor moves forward one over the written-back history, and the working copy is loaded from the new entry |
| Controller.PreviousThenNext | app.py.py:116-128 | going back and then forward restores the whole session |
| Controller.NextThenPrevious | app.py.py:116-128 | going forward and then back restores the whole session |
| Controller.MarkSolved | app.py.py:130-134 | acknowledging the revealed solution marks the question solved and changes nothing but the current entry's solved flag |
| Controller.Redo | app.py.py:136-145 | redo resets the current question's progress to not solved, no hints, no errors and empty code, and touches no other entry |
| Controller.Hint | app.py.py:600-605 | a hint request raises the hint count by one, leaves the rest of the progress alone and touches no other entry |
| Controller.EditCode | app.py.py:87-94 | an edit stores the new code in the current entry at once and changes nothing else |
| Controller.Fail | app.py.py:523-536 | a failed attempt adds one error, keeps the code and the hints, and the question is solved afterwards exactly when it was solved before or the error count reached the limit |
| Controller.Submit | app.py.py:511-597 | a correct run solves the question and clears the error count; a syntax error, runtime error or wrong output adds one error, and the question is solved afterwards exactly when it was solved before or the limit is reached; a run that escapes both handlers leaves the progress as it was; only the current entry changes |
| Display.ShownHints | app.py.py:616-621 | the hints shown are a prefix of the question's hints, `min(hint_index, len(hints))` long while the question is unsolved and none once it is solved |
| Display.HintShowsOneMore | app.py.py:600-628 | on an unsolved question each hint request shows exactly the next hint in order, and the request after the last hint shows all hints and reveals the solution |
| Display.GuardsAgree | app.py.py:464-650 | for a run that reaches the navigation: "Previous" and "Next question" always have an entry to move to, "Next level" is offered only where advancing appends, at most one of the two right-hand buttons is offered and one is unless the latest question is open, and a question closed to input is offered redo and the next level |
| Display.Render | app.py.py:464-465 | a complete run draws the editor, submit and hint usable exactly when input is not closed, and draws everything below the submit button |
| Display.SubmitDisabled | app.py.py:464-465 | input is closed exactly when the cursor is on the most recent entry and that entry is solved |
| Display.PreviousOffered | app.py.py:636-638 | "Previous" is usable away from the first entry |
| Display.NextOffered | app.py.py:640-650 | "Next question" is drawn away from the most recent entry |
| Display.AdvanceOffered | app.py.py:640-650 | "Next level" is drawn on the most recent entry once it is solved |
| Display.RedoOffered | app.py.py:607-610 | "Redo" is drawn whenever the question on screen is solved |
| Display.SolutionRevealed | app.py.py:616-628 | the solution and its "understood" button appear once more hints were asked for than there are, while the question is unsolved |
| Machine.WriteBackPreserves | app.py.py:54-66 | a change confined to the current entry's progress keeps the session invariant while that progress is settled |
| Machine.Apply | app.py.py:104-145 | every usable action keeps the invariant (cursor on an entry, working copy in sync, positive level, no unsolved entry at the error limit), only appends to the history, never changes an earlier question or the score, and raises the level exactly when it appends; a submission on a closed question leaves it closed |
| Machine.SubmitStep | app.py.py:464-597 | a submission changes the session as `Submit` does; the editor, submit and hint are drawn from the session as it was before the submission, and the lower controls exactly when the run is not stopped |
| Machine.EditSubmitStep | app.py.py:470-597 | an edit committed together with a submit click stores the code first and then submits it; the page is drawn as after a submission from the session before the click |
| Machine.RerunStep | app.py.py:600-650 | any other click changes the session as its handler does and the next page is drawn from the new session |
| Machine.AdvanceStep | app.py.py:104-115 | advancing from the latest, solved entry appends one untouched entry for the drawn question, moves onto it and raises the level by one |
| Machine.Step | app.py.py:464-650 | a click on a usable control keeps the screen invariant and changes the session as its handler does; every control but submit leaves a page drawn afresh from the new session; after a submission the editor, submit and hint are drawn from the session as it was before the submission, and the rest of the page is drawn only when the handler did not stop the run |
| Machine.Act | app.py.py:464-650 | a click on a control that is not on the page or not usable changes nothing; a click on a usable one is a step; either way the invariant holds and the history only grows |
| Machine.Run | app.py.py:104-145 | over any sequence of clicks the history is append-only, each question stays, the level rises exactly by the number of appended entries, and the score is unchanged |
| Machine.SubmitStreak | app.py.py:519-597 | over a run of submissions whose programs reach a handler, the cursor stays, a solved question stays solved, and until it is solved each submission adds one error |
| Machine.ForcedProgress | app.py.py:525-536 | whatever submissions whose programs reach a handler print or raise, after as many of them as the error limit has left the question is solved |
| Machine.ThreeSubmissionsSettle | app.py.py:18 | three submissions in a row whose programs reach a handler always leave the question solved |
| Machine.Enabled | app.py.py:464-650 | the editor, submit and hint follow the flag computed before the submit handler, and typing counts only when it changes the text; redo, the "understood" button and navigation follow the current session and exist only when the last run was not stopped |
| Machine.StopsRun | app.py.py:521-597 | handling a submission ends the run early on a syntax error (lines 536-537), on an escape past both handlers, and on a wrong output or runtime error that reaches the error limit (lines 579 and 597) |
| Machine.EscapesCountNothing | app.py.py:517-581 | a program that escapes both handlers counts no error however often it is submitted: the session stays exactly as it was |
| Machine.SolvedButStillOpen | app.py.py:464-605 | after a correct submission on the latest question the page still offers the editor, submit and hint; an edit that changes the text is stored in the solved entry, and the page after it is closed |
| Machine.ForcedSolveHidesControls | app.py.py:561-597 | a failed submission that reaches the error limit stops the run, so hint, redo and navigation are not drawn and clicking them does nothing |
| Machine.SolvedThenBrokenIsDeadEnd | app.py.py:464-597 | after a correct submission on the latest question, an edit committed with a submit click that does not parse stores the code on the solved entry and leaves a page with the editor and submit disabled and nothing below them, on which every click is ignored |
| Machine.StaleStopIsDeadEnd | app.py.py:464-597 | whenever the input is open only because of the lag, a submission that stops the run leaves a page on which every click is ignored |
| Scenarios.ApplePrice | app.py.py:384-396 | a fresh session on the apple-price question satisfies the session invariant, is unsolved with no errors, and can be submitted |
| Scenarios.AppleScreen | app.py.py:464-512 | the first page for the apple-price session offers the editor, submit and everything below |
| Scenarios.PrintedLineVerdict | app.py.py:550-552 | a line written by `print` is judged without its newline: correct when its text is the expected one, otherwise a mismatch carrying that text |
| Scenarios.TimesIsCorrect | app.py.py:550-559 | on the apple-price question, `print(price*count)` printing "15" and a newline is judged correct and leaves the question solved with no errors |
| Scenarios.PlusIsMismatch | app.py.py:561-564 | on the apple-price question, `print(price+count)` printing "8" is a mismatch carrying "8" |
| Scenarios.PlusSubmit | app.py.py:561-579 | each such submission adds one error and solves the question only once the limit is reached |
| Scenarios.PlusThreeTimes | app.py.py:561-579 | three such submissions in a row leave the question solved with three errors, and the last one stops the run before the navigation is drawn |
| Scenarios.UnclosedIsSyntaxError | app.py.py:521-537 | `print(price*count` with its parenthesis unclosed is a syntax error: one error, still unsolved |
| Scenarios.AdvanceScenario | app.py.py:104-115 | from the solved last entry of a three-entry history, advancing appends a fourth, untouched entry one level up and moves onto it |
| Scenarios.ReviewScenario | app.py.py:116-128 | on the middle entry of a three-entry history, previous then next restores the whole session |
| Persistence.LoadState | app.py.py:24-37 | a saved document is used exactly when it has both a history and a cursor |
| Persistence.Snapshot | app.py.py:39-52 | the document written holds every key, so the next visit always accepts it |
| Persistence.Startup | app.py.py:399-424 | without saved progress the session starts at level 1, score 0, with one untouched level-1 question; with saved progress it resumes the saved level, score, history and cursor (defaults 1 and 0) and fails exactly when the cursor selects no entry |
| Persistence.SnapshotRoundTrip | app.py.py:39-52 | saving a reachable session and starting again from the saved document gives back the same session |
| Persistence.FreshLevelCountsQuestions | app.py.py:408-415 | in a session started from scratch the level always equals the number of questions met |

## Left out

- Rendering: the page layout, messages, balloons, the sidebar, the progress bar
  and the script that makes the Tab key indent are presentation only.
- The question-and-answer helper (`process_qa_query`) and its search links are
  outside the quiz's state machine.
- `check_code_style` only adds a warning to the page and never changes the
  session, so it is not modelled.
- Running Python: parsing and executing the program is the `run` parameter.
  A program that never finishes is folded into the escaping outcome: it
  counts no error, but that the script run then never ends, and what the
  page allows afterwards, is not modelled.
  The learner's code runs in the app's own namespace and could in principle
  change the app's variables; that is not modelled.
- Randomness: which table entry, which generator, which word and which numbers
  are drawn are inputs (`Draw`).
- File I/O: a read or write failure that the app swallows is represented by
  `None` or simply not modelled; JSON encoding is the identity on `SavedDoc`.
- Persistence.Startup: a negative saved cursor is a failure here, while Python
  would index the history from its end. A key that is present with the JSON
  value `null` is not distinguished from a missing key: for level and score
  the source would carry `None` on; for `review_history` or `history_cursor`
  the source accepts the document (`load_state` only tests that the keys
  exist) and then fails when it indexes `None`, whereas the model discards
  the document and starts a fresh session.
- QuestionBank.AverageQuestion: the mean is computed by floored integer
  division, which agrees with the truncated float quotient for the positive
  values the generator draws; floating point itself is not modelled.
- Text.Upper: only ASCII letters are upper-cased, which covers the five words
  the generator draws from.
- Exercises.NewEntry: a question without a hints list gets an empty one in the
  source; the `Exercise` record always has a hints list, so that case cannot
  arise.
- The generated questions' reference solutions are text only; that they print
  the expected output is not checked, since it would need Python.
- The score is stored and restored but no action changes it.
- Stripping: `.strip()` at app.py.py:550 removes whitespace at both ends, and
  so does `Strip`.
- Dead end: because the page lags one run behind a submission, a submission
  handled on a solved latest question (through the stale submit button, or
  an edit committed together with a submit click) can stop its run under a
  disabled editor and submit with nothing drawn below, as
  `Machine.SolvedThenBrokenIsDeadEnd` and `Machine.StaleStopIsDeadEnd` show.
  In the app only reloading the browser page, which starts a new session from
  the saved file, gets past it; reloading is not modelled.
- Streamlit itself: callbacks run before the script, `st.rerun()` draws the
  page afresh, and `st.stop()` or an escaping exception ends a run without
  drawing the rest. A click on a button that the page showed usable is taken
  to reach its handler in the next run even when that run draws the button
  disabled; this is Streamlit's behaviour, not the app's.
- Scenarios.Python: what Python prints for the three example programs is
  written down as a fixed table, not derived from the programs.

=== FILE: controller.dfy ===
/** The session: the level reached, the score, the review history with its
    cursor, and the page's working copy of the progress on the entry under the
    cursor. Every transition is a pure function from session to session. */
module Controller {
  import opened Wrappers
  import opened Exercises
  import opened Evaluator

  /** Failed attempts after which the solution is shown and the question is
      marked solved. */
  const ERROR_LIMIT: nat := 3

  /** `live` is the working copy the page reads and edits (the solved flag,
      hint count, error count and code held outside the history); it is
      written back into `history[cursor]` after every change. */
  datatype Session = Session(level: int, score: int, history: seq<Entry>, cursor: nat, live: UserState)

  predicate CursorValid(s: Session) {
    s.cursor < |s.history|
  }

  /** The working copy agrees with the entry under the cursor. */
  predicate Synced(s: Session) {
    CursorValid(s) && s.live == s.history[s.cursor].user
  }

  function Current(s: Session): Entry
    requires CursorValid(s)
  {
    s.history[s.cursor]
  }

  /** `r` differs from `s` at most in the progress stored for the entry under
      the cursor, which becomes `r.live`; nothing else changes. */
  predicate WritesBack(s: Session, r: Session)
    requires CursorValid(s)
  {
    && r.level == s.level && r.score == s.score && r.cursor == s.cursor
    && |r.history| == |s.history|
    && r.history[s.cursor] == Entry(s.history[s.cursor].question, r.live)
    && forall i :: 0 <= i < |s.history| && i != s.cursor ==> r.history[i] == s.history[i]
  }

  // ---------------------------------------------------------------------------
  // Moving progress between the working copy and the history
  // ---------------------------------------------------------------------------

  /** Copies the working progress into `history[cursor]`, with the code
      replaced by `code` when one is given; a session with no history is left
      alone. Only the progress of that one entry changes. */
  function Save(s: Session, code: Option<string>): (r: Session)
    requires |s.history| == 0 || CursorValid(s)
    ensures r.level == s.level && r.score == s.score && r.cursor == s.cursor && r.live == s.live
    ensures |r.history| == |s.history|
    ensures forall i :: 0 <= i < |s.history| && i != s.cursor ==> r.history[i] == s.history[i]
    ensures CursorValid(s) ==> r.history[s.cursor].question == s.history[s.cursor].question
    ensures CursorValid(s) ==> r.history[s.cursor].user == s.live.(code := code.GetOr(s.live.code))
  {
    if |s.history| == 0 then s
    else
      var user := s.live.(code := code.GetOr(s.live.code));
      s.(history := s.history[s.cursor := Entry(s.history[s.cursor].question, user)])
  }

  /** Copies the progress stored for `history[cursor]` into the working copy;
      nothing else changes. */
  function Load(s: Session): (r: Session)
    requires CursorValid(s)
    ensures Synced(r)
    ensures r.(live := s.live) == s
  {
    s.(live := s.history[s.cursor].user)
  }

  /** Writing back a working copy that already agrees with the history changes nothing. */
  lemma SaveSyncedIsIdentity(s: Session)
    requires Synced(s)
    ensures Save(s, None) == s
    ensures Save(s, Some(s.live.code)) == s
  {
    assert Save(s, None).history == s.history;
    assert Save(s, Some(s.live.code)).history == s.history;
  }

  // ---------------------------------------------------------------------------
  // Navigation
  // ---------------------------------------------------------------------------

  /** Leaves the current question for the next one. The cursor moves forward
      by one; when it runs past the end of the history the level rises by one
      and one untouched entry for `drawn` (the question drawn for the new
      level) is appended, otherwise level and history length stay. Earlier
      entries only receive the write-back of the working copy. */
  function Advance(s: Session, drawn: Exercise): (r: Session)
    requires CursorValid(s)
    ensures r.cursor == s.cursor + 1
    ensures r.score == s.score && Synced(r)
    ensures |r.history| >= |s.history| && r.history[..|s.history|] == Save(s, None).history
    ensures s.cursor + 1 == |s.history| ==>
      && r.level == s.level + 1
      && |r.history| == |s.history| + 1
      && r.history[s.cursor + 1] == NewEntry(drawn)
      && r.live == Untouched
    ensures s.cursor + 1 < |s.history| ==> r.level == s.level && |r.history| == |s.history|
  {
    var saved := Save(s, None);
    var moved := saved.(cursor := saved.cursor + 1);
    var grown :=
      if moved.cursor >= |moved.history| then
        moved.(level := moved.level + 1, history := moved.history + [NewEntry(drawn)])
      else moved;
    Load(grown)
  }

  /** Goes back to the previous entry of the history. */
  function Previous(s: Session): (r: Session)
    requires CursorValid(s) && s.cursor > 0
    ensures r.cursor == s.cursor - 1
    ensures r.level == s.level && r.score == s.score && Synced(r)
    ensures r.history == Save(s, None).history
  {
    var saved := Save(s, None);
    Load(saved.(cursor := saved.cursor - 1))
  }

  /** Goes forward to the next, already existing, entry of the history. */
  function Next(s: Session): (r: Session)
    requires s.cursor + 1 < |s.history|
    ensures r.cursor == s.cursor + 1
    ensures r.level == s.level && r.score == s.score && Synced(r)
    ensures r.history == Save(s, None).history
  {
    var saved := Save(s, None);
    Load(saved.(cursor := saved.cursor + 1))
  }

  /** Going back and then forward again restores the whole session. */
  lemma PreviousThenNext(s: Session)
    requires Synced(s) && s.cursor > 0
    ensures Next(Previous(s)) == s
  {
    SaveSyncedIsIdentity(s);
    SaveSyncedIsIdentity(Previous(s));
  }

  /** Going forward and then back again restores the whole session. */
  lemma NextThenPrevious(s: Session)
    requires Synced(s) && s.cursor + 1 < |s.history|
    ensures Previous(Next(s)) == s
  {
    SaveSyncedIsIdentity(s);
    SaveSyncedIsIdentity(Next(s));
  }

  // ---------------------------------------------------------------------------
  // Changing the progress on the current question
  // ---------------------------------------------------------------------------

  /** The learner confirms they have read the revealed solution: the question
      counts as solved. */
  function MarkSolved(s: Session): (r: Session)
    requires CursorValid(s)
    ensures WritesBack(s, r)
    ensures r.live == s.live.(solved := true)
  {
    Save(s.(live := s.live.(solved := true)), None)
  }

  /** Starts the current question over: not solved, no hints, no errors, no code. */
  function Redo(s: Session): (r: Session)
    requires CursorValid(s)
    ensures WritesBack(s, r)
    ensures !r.live.solved && r.live.hintIndex == 0 && r.live.errorCount == 0 && r.live.code == ""
  {
    Save(s.(live := Untouched), None)
  }

  /** Asks for one more hint. */
  function Hint(s: Session): (r: Session)
    requires CursorValid(s)
    ensures WritesBack(s, r)
    ensures r.live.hintIndex == s.live.hintIndex + 1
    ensures r.live.solved == s.live.solved && r.live.errorCount == s.live.errorCount && r.live.code == s.live.code
  {
    Save(s.(live := s.live.(hintIndex := s.live.hintIndex + 1)), None)
  }

  /** The learner edits the code; the new text is stored at once. */
  function EditCode(s: Session, code: string): (r: Session)
    requires CursorValid(s)
    ensures WritesBack(s, r)
    ensures r.live.code == code
    ensures r.live.solved == s.live.solved && r.live.hintIndex == s.live.hintIndex && r.live.errorCount == s.live.errorCount
  {
    var edited := s.(live := s.live.(code := code));
    Save(edited, Some(edited.live.code))
  }

  /** One failed attempt: the error count goes up by one, and reaching the
      limit reveals the solution and marks the question solved. */
  function Fail(s: Session): (r: Session)
    requires CursorValid(s)
    ensures WritesBack(s, r)
    ensures r.live.errorCount == s.live.errorCount + 1
    ensures r.live.solved <==> s.live.solved || r.live.errorCount >= ERROR_LIMIT
    ensures r.live.hintIndex == s.live.hintIndex && r.live.code == s.live.code
  {
    var code := s.live.code;
    var counted := Save(s.(live := s.live.(errorCount := s.live.errorCount + 1)), Some(code));
    if counted.live.errorCount >= ERROR_LIMIT then
      Save(counted.(live := counted.live.(solved := true)), Some(code))
    else
      counted
  }

  /** Submits the working code. The program handed to Python is the preset
      code, a newline and the learner's code; `run` says what Python did with
      it. Output equal to the expected text once stripped solves the question
      and clears the error count; a syntax error, a runtime error or other
      output is one failed attempt, and the third one in a row solves the
      question by revealing the solution. A run that escapes both handlers
      leaves only the code stored before the program was parsed. */
  function Submit(s: Session, run: string -> ExecOutcome): (r: Session)
    requires CursorValid(s)
    ensures WritesBack(s, r)
    ensures r.live.hintIndex == s.live.hintIndex && r.live.code == s.live.code
    ensures var q := Current(s).question;
      var v := Judge(run(FullCode(q.preCode, s.live.code)), q.expected);
      && (v.Correct? ==> r.live.solved && r.live.errorCount == 0)
      && (v.Aborted? ==> r.live == s.live)
      && (!v.Correct? && !v.Aborted? ==>
            && r.live.errorCount == s.live.errorCount + 1
            && (r.live.solved <==> s.live.solved || r.live.errorCount >= ERROR_LIMIT))
  {
    var code := s.live.code;
    var s1 := Save(s, Some(code));
    var q := Current(s).question;
    match Judge(run(FullCode(q.preCode, code)), q.expected)
    case SyntaxFailure(_) => Fail(s1)
    case Correct => Save(s1.(live := s1.live.(solved := true, errorCount := 0)), Some(code))
    case Mismatch(_) => Fail(s1)
    case RuntimeFailure(_) => Fail(s1)
    case Aborted => s1
  }
}

=== FILE: display.dfy ===
/** What the page derives from a session: which buttons are usable and which
    hints (and whether the solution) are shown under the buttons. */
module Display {
  import opened Controller

  /** The cursor is on the most recent entry of the history. */
  predicate AtLatest(s: Session)
    requires CursorValid(s)
  {
    s.cursor == |s.history| - 1
  }

  /** Submitting, asking for a hint and editing the code are switched off
      exactly when the cursor is on the most recent entry and that entry is
      solved; solved earlier entries stay editable. */
  predicate SubmitDisabled(s: Session)
    requires CursorValid(s)
  {
    s.live.solved && AtLatest(s)
  }

  /** "Previous" is greyed out on the first entry. */
  predicate PreviousOffered(s: Session)
    requires CursorValid(s)
  {
    s.cursor != 0
  }

  /** "Next question" is offered away from the most recent entry. */
  predicate NextOffered(s: Session)
    requires CursorValid(s)
  {
    !AtLatest(s)
  }

  /** "Next level" is offered on the most recent entry once it is solved. */
  predicate AdvanceOffered(s: Session)
    requires CursorValid(s)
  {
    AtLatest(s) && s.live.solved
  }

  /** "Redo" is offered whenever the current entry is solved. */
  predicate RedoOffered(s: Session) {
    s.live.solved
  }

  /** How the guards relate, for a run that reaches the navigation:
      "Previous" and "Next question" each have an entry to move to, "Next
      level" is offered only where advancing appends, exactly one of the two
      right-hand buttons is offered unless the latest question is still open,
      and a question closed to input is offered redo and the next level. A
      run stopped before the navigation draws none of these. */
  lemma GuardsAgree(s: Session)
    requires CursorValid(s)
    ensures PreviousOffered(s) ==> 0 <= s.cursor - 1 < |s.history|
    ensures NextOffered(s) ==> s.cursor + 1 < |s.history|
    ensures AdvanceOffered(s) ==> s.cursor + 1 == |s.history|
    ensures !(NextOffered(s) && AdvanceOffered(s))
    ensures NextOffered(s) || AdvanceOffered(s) <==> !(AtLatest(s) && !s.live.solved)
    ensures SubmitDisabled(s) ==> AdvanceOffered(s) && RedoOffered(s)
  {
  }

  /** What the last run of the script left on the page. Whether the editor,
      the submit button and the hint button are usable is decided near the
      top of a run, before a submission is handled (`inputOpen`). The controls
      drawn after the submit button (hint, redo, the hint list, navigation)
      exist only when the run got past it (`lowerShown`), which it does not
      after `st.stop()` or an exception that escapes the handlers. */
  datatype Page = Page(inputOpen: bool, lowerShown: bool)

  /** The page a complete run draws for `s`. */
  function Render(s: Session): Page
    requires CursorValid(s)
  {
    Page(!SubmitDisabled(s), true)
  }

  function Min(a: int, b: int): int {
    if a <= b then a else b
  }

  /** The hints listed under the buttons: while the question is unsolved, the
      first `hint_index` of them, never more than there are. */
  function ShownHints(s: Session): (r: seq<string>)
    requires CursorValid(s)
    ensures var hints := Current(s).question.hints;
      && r <= hints
      && |r| == if s.live.hintIndex > 0 && !s.live.solved then Min(s.live.hintIndex, |hints|) else 0
  {
    var hints := Current(s).question.hints;
    if s.live.hintIndex > 0 && !s.live.solved then hints[..Min(s.live.hintIndex, |hints|)] else []
  }

  /** The solution is shown (with its "understood" button) once more hints
      were asked for than the question has, while it is unsolved. */
  predicate SolutionRevealed(s: Session)
    requires CursorValid(s)
  {
    s.live.hintIndex > 0 && !s.live.solved && s.live.hintIndex > |Current(s).question.hints|
  }

  /** Each hint request on an unsolved question shows exactly one more hint,
      in order; the request after the last hint reveals the solution instead. */
  lemma HintShowsOneMore(s: Session)
    requires Synced(s) && !s.live.solved
    ensures var r := Hint(s);
      var hints := Current(s).question.hints;
      var h := s.live.hintIndex;
      && (h < |hints| ==> ShownHints(r) == ShownHints(s) + [hints[h]] && !SolutionRevealed(r))
      && (h >= |hints| ==> ShownHints(r) == hints && SolutionRevealed(r))
  {
    var hints := Current(s).question.hints;
    var h := s.live.hintIndex;
    var r := Hint(s);
    assert Current(r).question == Current(s).question;
    assert ShownHints(s) == hints[..Min(h, |hints|)];
    if h < |hints| {
      assert hints[..h + 1] == hints[..h] + [hints[h]];
    } else {
      assert hints[..|hints|] == hints;
    }
  }
}

=== FILE: evaluator.dfy ===
/** Judging a submission. Running Python is outside the model: what running the
    combined program did is given as an `ExecOutcome`. */
module Evaluator {
  import opened Text

  /** What happened when the combined program was handed to Python: it did not
      parse, it raised an `Exception` while running, it ran and printed
      `stdout`, or it escaped: parsing or running raised something neither
      handler catches (`SystemExit` from `exit()` or `sys.exit()`,
      `KeyboardInterrupt`, or an error from `ast.parse` other than a
      `SyntaxError`), or the program never finished. */
  datatype ExecOutcome =
    | SyntaxErr(message: string)
    | RuntimeErr(message: string)
    | Output(stdout: string)
    | Escaped

  /** The judgement of one submission; `Aborted` is a run that escaped, and no
      verdict is reached. */
  datatype Verdict = Correct | SyntaxFailure(message: string) | RuntimeFailure(message: string) | Mismatch(actual: string) | Aborted

  /** A run that always reaches one of the handlers: every program it is given
      either fails to parse with a `SyntaxError`, raises an `Exception` while
      running, or finishes. */
  ghost predicate Completes(run: string -> ExecOutcome) {
    forall p :: !run(p).Escaped?
  }

  /** The program that is parsed and run: the question's preset code, a
      newline, then the learner's code. */
  function FullCode(preCode: string, code: string): (r: string)
    ensures |r| == |preCode| + 1 + |code|
    ensures r[..|preCode|] == preCode && r[|preCode|] == '\n' && r[|preCode| + 1..] == code
  {
    preCode + "\n" + code
  }

  /** The verdict for an outcome: only printed output whose stripped form is
      exactly `expected` is correct; each kind of fault maps to its failure. */
  function Judge(outcome: ExecOutcome, expected: string): (v: Verdict)
    ensures v.Correct? <==> outcome.Output? && Strip(outcome.stdout) == expected
    ensures v.SyntaxFailure? <==> outcome.SyntaxErr?
    ensures v.RuntimeFailure? <==> outcome.RuntimeErr?
    ensures v.Aborted? <==> outcome.Escaped?
    ensures v.Mismatch? ==> v.actual == Strip(outcome.stdout) && v.actual != expected
  {
    match outcome
    case SyntaxErr(m) => SyntaxFailure(m)
    case RuntimeErr(m) => RuntimeFailure(m)
    case Escaped => Aborted
    case Output(out) =>
      var actual := Strip(out);
      if actual == expected then Correct else Mismatch(actual)
  }

  /** A question is answerable when some printed output is judged correct;
      that is so exactly when its expected text has no surrounding whitespace. */
  predicate Answerable(expected: string) {
    Strip(expected) == expected
  }

  lemma AnswerableIff(expected: string)
    ensures Answerable(expected) <==> exists out :: Judge(Output(out), expected).Correct?
  {
    if Answerable(expected) {
      assert Judge(Output(expected), expected).Correct?;
    }
    if exists out :: Judge(Output(out), expected).Correct? {
      var out :| Judge(Output(out), expected).Correct?;
      StripIdempotent(out);
    }
  }

  /** Whitespace printed before or after the answer never changes the verdict. */
  lemma JudgeIgnoresPadding(lead: string, out: string, trail: string, expected: string)
    requires AllSpace(lead) && AllSpace(trail)
    ensures Judge(Output(lead + out + trail), expected) == Judge(Output(out), expected)
  {
    StripIgnoresPadding(lead, out, trail);
  }

  /** Text with no whitespace at either end is answerable. */
  lemma TrimmedIsAnswerable(expected: string)
    requires Trimmed(expected)
    ensures Answerable(expected)
  {
    assert [] + expected + [] == expected;
    StripUnique([], expected, []);
  }
}

=== FILE: exercises.dfy ===
/** The records the quiz keeps: an exercise, the learner's progress on it, and
    one entry of the review history pairing the two. */
module Exercises {

  /** One question: what is shown, the code placed before the learner's code,
      the output that counts as correct, the hints in order, and the solution
      revealed after the hints run out or after too many failed attempts. */
  datatype Exercise = Exercise(
    title: string,
    desc: string,
    preCode: string,
    expected: string,
    hints: seq<string>,
    finalSolution: string)

  /** Progress on one question: solved flag, number of hints asked for,
      failed attempts since the last success or reset, and the code typed. */
  datatype UserState = UserState(solved: bool, hintIndex: nat, errorCount: nat, code: string)

  /** One entry of the review history. */
  datatype Entry = Entry(question: Exercise, user: UserState)

  /** The progress of a question nobody has touched yet. */
  const Untouched: UserState := UserState(false, 0, 0, "")

  /** A history entry for a newly drawn question. */
  function NewEntry(q: Exercise): (e: Entry)
    ensures e.question == q
    ensures !e.user.solved && e.user.hintIndex == 0 && e.user.errorCount == 0 && e.user.code == ""
  {
    Entry(q, Untouched)
  }
}

=== FILE: machine.dfy ===
/** The session as a state machine driven by the learner's clicks. A click is
    possible only on a control the last run of the script drew usable, and a
    click on any other control changes nothing. The page lags the session by
    one run after a submission, because the input controls are decided before
    the submission is handled. */
module Machine {
  import opened Exercises
  import opened Evaluator
  import opened QuestionBank
  import opened Controller
  import opened Display

  datatype Action =
    | SubmitCode(run: string -> ExecOutcome)   // what Python does with the program handed to it
    | AskHint
    | RedoQuestion
    | AcknowledgeSolution
    | TypeCode(code: string)
    | EditThenSubmit(code: string, run: string -> ExecOutcome)   // an edit and a submit click committed in one run
    | GoPrevious
    | GoNext
    | AdvanceLevel(draw: Draw)                 // the random choices behind the next question

  /** A question is never left unsolved with the error limit reached. */
  predicate Settled(u: UserState) {
    u.solved || u.errorCount < ERROR_LIMIT
  }

  /** What every reachable session satisfies: the cursor is on an entry, the
      working copy agrees with it, the level is positive and no entry is stuck
      at the error limit. */
  predicate Inv(s: Session) {
    && Synced(s)
    && s.level >= 1
    && forall i :: 0 <= i < |s.history| ==> Settled(s.history[i].user)
  }

  /** The session together with the page the last run of the script drew
      for it. */
  datatype Screen = Screen(session: Session, page: Page)

  /** What every reachable screen satisfies: the session invariant, and the
      editor is locked only on a session where the page would lock it anyway.
      The converse fails for one run: a submission that solves the latest
      question leaves the editor, the submit and the hint button usable. */
  predicate ScreenInv(v: Screen) {
    && Inv(v.session)
    && (!v.page.inputOpen ==> SubmitDisabled(v.session))
  }

  /** Whether the control for `a` is on the page and usable. The editor and
      the submit and hint buttons follow the flag of the last run; the other
      controls were drawn from the session as it is now. Committing the text
      area unchanged fires no change callback and starts no run, so only a
      different text counts as an edit. */
  predicate Enabled(v: Screen, a: Action)
    requires CursorValid(v.session)
  {
    var s := v.session;
    match a
    case SubmitCode(_) => v.page.inputOpen
    case TypeCode(code) => v.page.inputOpen && code != s.live.code
    case EditThenSubmit(_, _) => v.page.inputOpen
    case AskHint => v.page.inputOpen && v.page.lowerShown
    case RedoQuestion => v.page.lowerShown && RedoOffered(s)
    case AcknowledgeSolution => v.page.lowerShown && SolutionRevealed(s)
    case GoPrevious => v.page.lowerShown && PreviousOffered(s)
    case GoNext => v.page.lowerShown && NextOffered(s)
    case AdvanceLevel(d) => v.page.lowerShown && AdvanceOffered(s) && ValidDraw(s.level + 1, d)
  }

  /** Whether handling a submission ends the run early: a syntax error always
      does, a run that escapes does, and a wrong output or runtime error does
      when it reaches the error limit. */
  predicate StopsRun(s: Session, run: string -> ExecOutcome)
    requires CursorValid(s)
  {
    var q := Current(s).question;
    var v := Judge(run(FullCode(q.preCode, s.live.code)), q.expected);
    v.SyntaxFailure? || v.Aborted?
    || (!v.Correct? && s.live.errorCount + 1 >= ERROR_LIMIT)
  }

  /** One step changes at most the current entry's progress, may append
      entries (raising the level by as many), and keeps the score and every
      question. */
  predicate Grows(s: Session, r: Session)
    requires CursorValid(s)
  {
    && |r.history| >= |s.history|
    && r.level - s.level == |r.history| - |s.history|
    && r.score == s.score
    && r.history[s.cursor].question == s.history[s.cursor].question
    && forall i :: 0 <= i < |s.history| && i != s.cursor ==> r.history[i] == s.history[i]
  }

  /** The part of `Grows` that survives any number of steps: the history only
      gets longer, existing questions stay, the level rises exactly with the
      number of appended entries, and the score is untouched. */
  predicate Extends(s: Session, r: Session) {
    && |r.history| >= |s.history|
    && r.level - s.level == |r.history| - |s.history|
    && r.score == s.score
    && forall i :: 0 <= i < |s.history| ==> r.history[i].question == s.history[i].question
  }

  /** A change confined to the current entry's progress keeps the invariant
      as long as the new progress is settled. */
  lemma WriteBackPreserves(s: Session, r: Session)
    requires Inv(s) && WritesBack(s, r) && Settled(r.live)
    ensures Inv(r) && Grows(s, r)
  {
  }

  /** Moving the cursor over an unchanged history keeps the invariant. */
  lemma MovePreserves(s: Session, r: Session)
    requires Inv(s) && Synced(r)
    requires r.history == s.history && r.level == s.level && r.score == s.score
    ensures Inv(r) && Grows(s, r)
  {
  }

  /** Advancing from the most recent, solved entry appends an untouched entry
      for `q` and moves onto it. */
  function AdvanceStep(s: Session, q: Exercise): (r: Session)
    requires Inv(s) && AdvanceOffered(s)
    ensures Inv(r) && Grows(s, r)
    ensures r.history == s.history + [NewEntry(q)]
    ensures r.cursor == |s.history| && r.level == s.level + 1
  {
    SaveSyncedIsIdentity(s);
    var r := Advance(s, q);
    assert r.history == r.history[..|s.history|] + [r.history[|s.history|]];
    r
  }

  /** The session effect of a click whose control is usable. */
  function Apply(s: Session, a: Action): (r: Session)
    requires Inv(s)
    requires !a.AdvanceLevel? || (AdvanceOffered(s) && ValidDraw(s.level + 1, a.draw))
    requires a.GoPrevious? ==> PreviousOffered(s)
    requires a.GoNext? ==> NextOffered(s)
    ensures Inv(r)
    ensures Grows(s, r)
    ensures r.level == s.level + (if a.AdvanceLevel? then 1 else 0)
    ensures a.AdvanceLevel? ==>
      && r.history == s.history + [NewEntry(GetQuestion(s.level + 1, a.draw))]
      && r.cursor == |s.history|
    ensures (a.SubmitCode? || a.EditThenSubmit?) && SubmitDisabled(s) ==> SubmitDisabled(r)
  {
    match a
    case SubmitCode(run) =>
      var r := Submit(s, run);
      WriteBackPreserves(s, r);
      r
    case AskHint =>
      var r := Hint(s);
      WriteBackPreserves(s, r);
      r
    case TypeCode(code) =>
      var r := EditCode(s, code);
      WriteBackPreserves(s, r);
      r
    case EditThenSubmit(code, run) =>
      var e := EditCode(s, code);
      WriteBackPreserves(s, e);
      var r := Submit(e, run);
      WriteBackPreserves(e, r);
      r
    case RedoQuestion =>
      var r := Redo(s);
      WriteBackPreserves(s, r);
      r
    case AcknowledgeSolution =>
      var r := MarkSolved(s);
      WriteBackPreserves(s, r);
      r
    case GoPrevious =>
      SaveSyncedIsIdentity(s);
      var r := Previous(s);
      MovePreserves(s, r);
      r
    case GoNext =>
      SaveSyncedIsIdentity(s);
      var r := Next(s);
      MovePreserves(s, r);
      r
    case AdvanceLevel(d) =>
      AdvanceStep(s, GetQuestion(s.level + 1, d))
  }

  /** A submission is handled in the middle of a run: the editor and the
      buttons above the handler keep the flag computed before it, and what
      follows is drawn only if the handler does not stop the run. */
  function SubmitStep(v: Screen, run: string -> ExecOutcome): (r: Screen)
    requires ScreenInv(v) && v.page.inputOpen
    ensures ScreenInv(r)
    ensures Grows(v.session, r.session) && r.session.level == v.session.level
    ensures r.session == Submit(v.session, run) == Apply(v.session, SubmitCode(run))
    ensures r.page.inputOpen == !SubmitDisabled(v.session)
    ensures r.page.lowerShown == !StopsRun(v.session, run)
  {
    var s := v.session;
    var r := Apply(s, SubmitCode(run));
    Screen(r, Page(!SubmitDisabled(s), !StopsRun(s, run)))
  }

  /** An edit and a submit click that reach the server together: the edit's
      callback runs first, then the submission is handled in the run. */
  function EditSubmitStep(v: Screen, code: string, run: string -> ExecOutcome): (r: Screen)
    requires ScreenInv(v) && v.page.inputOpen
    ensures ScreenInv(r)
    ensures r.session == Submit(EditCode(v.session, code), run) == Apply(v.session, EditThenSubmit(code, run))
    ensures r.page.inputOpen == !SubmitDisabled(v.session)
    ensures r.page.lowerShown == !StopsRun(EditCode(v.session, code), run)
  {
    var e := Apply(v.session, TypeCode(code));
    SubmitStep(Screen(e, v.page), run)
  }

  /** Every control but submit either has a callback that runs before the
      script or ends its handler with `st.rerun()`, so the page is drawn
      afresh from the new session. */
  function RerunStep(v: Screen, a: Action): (r: Screen)
    requires ScreenInv(v) && !a.SubmitCode? && !a.EditThenSubmit?
    requires !a.AdvanceLevel? || (AdvanceOffered(v.session) && ValidDraw(v.session.level + 1, a.draw))
    requires a.GoPrevious? ==> PreviousOffered(v.session)
    requires a.GoNext? ==> NextOffered(v.session)
    ensures ScreenInv(r)
    ensures r.session == Apply(v.session, a)
    ensures r.page == Render(r.session)
  {
    var r := Apply(v.session, a);
    Screen(r, Render(r))
  }

  /** One click on a usable control: its effect on the session, and the page
      the following run draws. */
  function Step(v: Screen, a: Action): (r: Screen)
    requires ScreenInv(v) && Enabled(v, a)
    ensures ScreenInv(r)
    ensures r.session == Apply(v.session, a)
    ensures !a.SubmitCode? && !a.EditThenSubmit? ==> r.page == Render(r.session)
    ensures a.SubmitCode? ==>
      && r.page.inputOpen == !SubmitDisabled(v.session)
      && r.page.lowerShown == !StopsRun(v.session, a.run)
    ensures a.EditThenSubmit? ==>
      && r.page.inputOpen == !SubmitDisabled(v.session)
      && r.page.lowerShown == !StopsRun(EditCode(v.session, a.code), a.run)
  {
    if a.SubmitCode? then SubmitStep(v, a.run)
    else if a.EditThenSubmit? then EditSubmitStep(v, a.code, a.run)
    else RerunStep(v, a)
  }

  /** A click: performed when its control is usable, ignored otherwise. */
  function Act(v: Screen, a: Action): (r: Screen)
    requires ScreenInv(v)
    ensures ScreenInv(r) && Extends(v.session, r.session)
    ensures !Enabled(v, a) ==> r == v
    ensures Enabled(v, a) ==> r == Step(v, a)
  {
    if Enabled(v, a) then Step(v, a) else v
  }

  /** A sequence of clicks. */
  function Run(v: Screen, acts: seq<Action>): (r: Screen)
    requires ScreenInv(v)
    ensures ScreenInv(r) && Extends(v.session, r.session)
    decreases |acts|
  {
    if |acts| == 0 then v else Run(Act(v, acts[0]), acts[1..])
  }

  /** The first page of a visit is drawn afresh, and satisfies the invariant. */
  lemma FirstPage(s: Session)
    requires Inv(s)
    ensures ScreenInv(Screen(s, Render(s)))
  {
  }

  /** Every click is a submission whose program reaches one of the handlers. */
  ghost predicate AllSubmits(acts: seq<Action>) {
    forall k :: 0 <= k < |acts| ==> acts[k].SubmitCode? && Completes(acts[k].run)
  }

  /** Over a run of submissions the cursor stays put, a solved question stays
      solved, and until it is solved every submission adds one error. */
  lemma {:induction false} SubmitStreak(v: Screen, acts: seq<Action>)
    requires ScreenInv(v) && AllSubmits(acts)
    ensures var r := Run(v, acts).session;
      && r.cursor == v.session.cursor
      && (v.session.live.solved ==> r.live.solved)
      && (r.live.solved || r.live.errorCount >= v.session.live.errorCount + |acts|)
    decreases |acts|
  {
    if |acts| > 0 {
      var s := v.session;
      var w := Act(v, acts[0]);
      var t := w.session;
      assert t.cursor == s.cursor;
      assert s.live.solved ==> t.live.solved;
      assert t.live.solved || t.live.errorCount == s.live.errorCount + 1 by {
        if Enabled(v, acts[0]) {
          var q := Current(s).question;
          assert !acts[0].run(FullCode(q.preCode, s.live.code)).Escaped?;
        }
      }
      SubmitStreak(w, acts[1..]);
    }
  }

  /** Forced progress: whatever the submissions do (right answer, syntax
      error, runtime error, wrong output, in any mix), after as many of them as
      the error limit has left the question is solved. */
  lemma ForcedProgress(v: Screen, acts: seq<Action>)
    requires ScreenInv(v) && AllSubmits(acts)
    requires |acts| >= ERROR_LIMIT - v.session.live.errorCount
    ensures Run(v, acts).session.live.solved
  {
    SubmitStreak(v, acts);
    var r := Run(v, acts).session;
    assert Settled(r.history[r.cursor].user);
  }

  /** In particular three submissions in a row always settle a question. */
  lemma ThreeSubmissionsSettle(v: Screen, acts: seq<Action>)
    requires ScreenInv(v) && AllSubmits(acts) && |acts| >= 3
    ensures Run(v, acts).session.live.solved
  {
    ForcedProgress(v, acts);
  }

  /** A program that escapes the handlers (`exit()`, `sys.exit()`, an endless
      loop) is not counted as an error: however often it is submitted, the
      session stays exactly as it was, so an unsolved question stays unsolved. */
  lemma {:induction false} EscapesCountNothing(v: Screen, run: string -> ExecOutcome, n: nat)
    requires ScreenInv(v)
    requires forall p :: run(p) == Escaped
    ensures Run(v, seq(n, _ => SubmitCode(run))).session == v.session
    decreases n
  {
    var acts := seq(n, _ => SubmitCode(run));
    if n > 0 {
      var w := Act(v, SubmitCode(run));
      assert w.session == v.session by {
        if Enabled(v, SubmitCode(run)) {
          var s := v.session;
          var r := Submit(s, run);
          assert r.live == s.live;
          assert r.history == s.history;
        }
      }
      assert acts[1..] == seq(n - 1, _ => SubmitCode(run));
      EscapesCountNothing(w, run, n - 1);
    }
  }

  /** The lag of one run: a correct submission on the latest question solves
      it, yet the page it leaves still offers the editor, the submit and the
      hint button. An edit made there is stored in the solved entry, and the
      page after it is locked. */
  lemma SolvedButStillOpen(v: Screen, run: string -> ExecOutcome, code: string)
    requires ScreenInv(v) && v.page == Render(v.session)
    requires AtLatest(v.session) && !v.session.live.solved
    requires code != v.session.live.code
    requires var q := Current(v.session).question;
      Judge(run(FullCode(q.preCode, v.session.live.code)), q.expected).Correct?
    ensures var w := Act(v, SubmitCode(run));
      && SubmitDisabled(w.session)
      && w.page.inputOpen && w.page.lowerShown
      && Enabled(w, TypeCode(code)) && Enabled(w, AskHint)
      && var x := Act(w, TypeCode(code));
         && x.session.live.solved && x.session.live.code == code
         && x.session.history[x.session.cursor].user.code == code
         && !x.page.inputOpen
  {
  }

  /** A submission that reaches the error limit stops the run right after
      revealing the solution: the hint, redo and navigation controls are not
      drawn, so until the next edit or submission every other click is
      ignored. */
  lemma ForcedSolveHidesControls(v: Screen, run: string -> ExecOutcome, a: Action)
    requires ScreenInv(v) && v.page.inputOpen && !v.session.live.solved
    requires v.session.live.errorCount + 1 >= ERROR_LIMIT
    requires var q := Current(v.session).question;
      !Judge(run(FullCode(q.preCode, v.session.live.code)), q.expected).Correct?
    requires !a.SubmitCode? && !a.TypeCode? && !a.EditThenSubmit?
    ensures var w := Act(v, SubmitCode(run));
      && !w.page.lowerShown
      && Act(w, a) == w
  {
  }

  /** A dead end the lag allows. After a correct submission on the latest
      question the editor and submit are still usable; an edit committed
      together with a submit click then runs on the solved question, and a
      syntax error stops that run under an editor and submit drawn disabled,
      with nothing drawn below them. Every click on that page is ignored. */
  lemma SolvedThenBrokenIsDeadEnd(v: Screen, good: string -> ExecOutcome, code: string,
                                  bad: string -> ExecOutcome, a: Action)
    requires ScreenInv(v) && v.page == Render(v.session)
    requires AtLatest(v.session) && !v.session.live.solved
    requires var q := Current(v.session).question;
      Judge(good(FullCode(q.preCode, v.session.live.code)), q.expected).Correct?
    requires forall p :: bad(p).SyntaxErr?
    ensures var x := Act(Act(v, SubmitCode(good)), EditThenSubmit(code, bad));
      && x.session.live.solved && x.session.live.code == code
      && !x.page.inputOpen && !x.page.lowerShown
      && Act(x, a) == x
  {
    var w := Act(v, SubmitCode(good));
    assert SubmitDisabled(w.session) && w.page.inputOpen;
    var e := EditCode(w.session, code);
    var q := Current(e).question;
    assert bad(FullCode(q.preCode, e.live.code)).SyntaxErr?;
  }

  /** The general form: whenever the input is open only because of the lag
      (the question on the latest entry is already solved), a submission that
      stops the run leaves a page on which every click is ignored. A failed
      resubmission after a forced solve is one way to get there. */
  lemma StaleStopIsDeadEnd(w: Screen, run: string -> ExecOutcome, a: Action)
    requires ScreenInv(w) && w.page.inputOpen && SubmitDisabled(w.session)
    requires StopsRun(w.session, run)
    ensures var x := Act(w, SubmitCode(run));
      && !x.page.inputOpen && !x.page.lowerShown
      && Act(x, a) == x
  {
  }
}

=== FILE: persistence.dfy ===
/** Starting a session: from the saved progress document when there is a
    usable one, otherwise from scratch with one level-1 question. Reading and
    writing the file itself is outside the model; the document is given as
    a value, `None` standing for a file that is missing or unreadable. */
module Persistence {
  import opened Wrappers
  import opened Exercises
  import opened QuestionBank
  import opened Controller
  import opened Display
  import opened Machine

  /** The saved document; any of its keys may be missing. */
  datatype SavedDoc = SavedDoc(
    level: Option<int>,
    score: Option<int>,
    history: Option<seq<Entry>>,
    cursor: Option<int>)

  /** The document written after every change: level, score, history and
      cursor. The working copy is not written; it lives on in the history.
      Every key is present, so the next visit always accepts it. */
  function Snapshot(s: Session): (d: SavedDoc)
    ensures LoadState(Some(d)) == Some(d)
    ensures d.history.Some? && d.cursor.Some?
  {
    SavedDoc(Some(s.level), Some(s.score), Some(s.history), Some(s.cursor))
  }

  /** Reading the saved progress: a document is used only if it has both a
      history and a cursor; anything else counts as no saved progress. */
  function LoadState(file: Option<SavedDoc>): (r: Option<SavedDoc>)
    ensures r.Some? <==> file.Some? && file.value.history.Some? && file.value.cursor.Some?
    ensures r.Some? ==> r == file
  {
    match file
    case Some(doc) => if doc.history.Some? && doc.cursor.Some? then file else None
    case None => None
  }

  /** The session a visit starts with. With a document, missing level and
      score default to 1 and 0, and the entry under the saved cursor is
      loaded, which fails when the cursor selects no entry. Without one, the
      session holds a single untouched question drawn for level 1. */
  function Startup(loaded: Option<SavedDoc>, first: Draw): (r: Result<Session, string>)
    requires ValidDraw(1, first)
    ensures r.Success? ==> Synced(r.value)
    ensures loaded.None? ==>
      && r.Success?
      && Inv(r.value)
      && r.value.level == 1 && r.value.score == 0 && r.value.cursor == 0
      && r.value.history == [NewEntry(GetQuestion(1, first))]
      && r.value.live == Untouched
    ensures loaded.Some? ==>
      var history := loaded.value.history.GetOr([]);
      var cursor := loaded.value.cursor.GetOr(0);
      && (r.Success? <==> 0 <= cursor < |history|)
      && (r.Success? ==> r.value.history == history && r.value.cursor == cursor
                         && r.value.level == loaded.value.level.GetOr(1)
                         && r.value.score == loaded.value.score.GetOr(0))
  {
    match loaded
    case Some(doc) =>
      var history := doc.history.GetOr([]);
      var cursor := doc.cursor.GetOr(0);
      if 0 <= cursor < |history| then
        Success(Load(Session(doc.level.GetOr(1), doc.score.GetOr(0), history, cursor, Untouched)))
      else
        Failure("IndexError: the saved cursor selects no history entry")
    case None =>
      Success(Load(Session(1, 0, [NewEntry(GetQuestion(1, first))], 0, Untouched)))
  }

  /** Saving and then starting again from the saved document gives back the
      very same session. */
  lemma SnapshotRoundTrip(s: Session, first: Draw)
    requires Inv(s) && ValidDraw(1, first)
    ensures Startup(LoadState(Some(Snapshot(s))), first) == Success(s)
  {
  }

  /** In a session started from scratch the level always equals the number of
      questions met so far, whatever the learner does. */
  lemma FreshLevelCountsQuestions(first: Draw, acts: seq<Action>)
    requires ValidDraw(1, first)
    ensures var s := Startup(None, first).value;
      var r := Run(Screen(s, Render(s)), acts).session;
      r.level == |r.history|
  {
    FirstPage(Startup(None, first).value);
  }
}

=== FILE: question_bank.dfy ===
/** Where questions come from: a fixed table for levels 1 to 5 and five
    generators for every later level. The random choices (which table entry,
    which generator, which word, which numbers) are inputs, gathered in `Draw`. */
module QuestionBank {
  import opened Text
  import opened Exercises
  import opened Evaluator

  // ---------------------------------------------------------------------------
  // The fixed table
  // ---------------------------------------------------------------------------

  /** Level 1, question 1. */
  const Level1Q1: Exercise := Exercise(
    "打印问候语",
    "请编写代码，打印出字符串 'Hello Python' (注意大小写，不要多空格)。",
    "",
    "Hello Python",
    ["使用 print() 函数", "注意引号"],
    "print('Hello Python')")

  /** Level 1, question 2. */
  const Level1Q2: Exercise := Exercise(
    "计算苹果总价",
    "已知 price=5, count=3。请计算总价并打印出来。",
    "price = 5\ncount = 3",
    "15",
    ["使用 * 符号", "print(price * count)"],
    "total = price * count\nprint(total)")

  /** Level 2, question 1. */
  const Level2Q1: Exercise := Exercise(
    "找偶数",
    "列表 `nums = [1, 2, 3, 4]` 已定义。请用 for 循环遍历，只打印出其中的偶数。",
    "nums = [1, 2, 3, 4]",
    "2\n4",
    ["for num in nums:", "if num % 2 == 0:"],
    "for num in nums:\n    if num % 2 == 0:\n        print(num)")

  /** Level 2, question 2. */
  const Level2Q2: Exercise := Exercise(
    "提取邮箱域名",
    "变量 `email = 'tom@gmail.com'`。请使用 split 方法提取并打印出 'gmail.com'。",
    "email = 'tom@gmail.com'",
    "gmail.com",
    ["email.split('@')", "取列表第2个元素"],
    "parts = email.split('@')\nprint(parts[1])")

  /** Level 3, question 1. */
  const Level3Q1: Exercise := Exercise(
    "统计元音字母",
    "计算并打印字符串 `s = 'Python'` 中元音字母（a, e, i, o, u）的总个数。",
    "s = 'Python'\nvowels = 'aeiou'",
    "1",
    ["初始化 count = 0", "用 for 循环遍历字符串", "用 if letter in vowels: 判断"],
    "count = 0\nfor char in s.lower():\n    if char in vowels:\n        count += 1\nprint(count)")

  /** Level 4, question 1. */
  const Level4Q1: Exercise := Exercise(
    "字典库存更新",
    "字典 `inventory = {'apple': 10, 'banana': 5}` 已定义。请将 'banana' 的库存数量增加 3，并打印更新后的 'banana' 库存数量。",
    "inventory = {'apple': 10, 'banana': 5}",
    "8",
    ["使用方括号 `[]` 访问键值", "使用 `+=` 进行累加操作"],
    "inventory['banana'] += 3\nprint(inventory['banana'])")

  /** Level 5, question 1. */
  const Level5Q1: Exercise := Exercise(
    "定义乘方函数",
    "请定义一个名为 `power_of_two` 的函数，它接受一个参数 `n`，并返回 `n` 的 2 次方。然后调用此函数，传入 7 并打印结果。",
    "",
    "49",
    ["使用 `def` 关键字定义函数", "函数体内使用 `return n ** 2`"],
    "def power_of_two(n):\n    return n ** 2\n\nprint(power_of_two(7))")

  /** Levels that have fixed questions. */
  predicate HasStatic(level: int) {
    1 <= level <= 5
  }

  /** The fixed questions of a level: two for levels 1 and 2, one for levels
      3 to 5, none for any other level. */
  function StaticQuestions(level: int): (qs: seq<Exercise>)
    ensures |qs| > 0 <==> HasStatic(level)
    ensures HasStatic(level) ==> |qs| == if level <= 2 then 2 else 1
  {
    if level == 1 then [Level1Q1, Level1Q2]
    else if level == 2 then [Level2Q1, Level2Q2]
    else if level == 3 then [Level3Q1]
    else if level == 4 then [Level4Q1]
    else if level == 5 then [Level5Q1]
    else []
  }

  // ---------------------------------------------------------------------------
  // Generator 1: sum of the multiples of 3 up to a limit
  // ---------------------------------------------------------------------------

  function SumLimit(level: int): int {
    (level - 5) * 4 + 10
  }

  /** The sum of the `i` in `1..limit` divisible by 3 (zero when the range is empty). */
  function SumOfMultiplesOf3(limit: int): nat
    decreases limit
  {
    if limit < 1 then 0
    else SumOfMultiplesOf3(limit - 1) + (if limit % 3 == 0 then limit else 0)
  }

  /** The closed form: with `k = limit / 3` multiples, the sum is `3 * k * (k + 1) / 2`. */
  lemma {:induction false} SumOfMultiplesClosedForm(limit: nat)
    ensures 2 * SumOfMultiplesOf3(limit) == 3 * (limit / 3) * (limit / 3 + 1)
    decreases limit
  {
    if limit > 0 {
      SumOfMultiplesClosedForm(limit - 1);
      var k := limit / 3;
      if limit % 3 == 0 {
        assert (limit - 1) / 3 == k - 1;
        assert limit == 3 * k;
        calc {
          2 * SumOfMultiplesOf3(limit);
          2 * SumOfMultiplesOf3(limit - 1) + 2 * limit;
          3 * (k - 1) * k + 6 * k;
          3 * k * (k + 1);
        }
      } else {
        assert (limit - 1) / 3 == k;
      }
    }
  }

  /** The sum question for a later level; printing its expected text answers it. */
  function SumQuestion(level: int): (q: Exercise)
    ensures Answerable(q.expected)
  {
    var limit := SumLimit(level);
    NumeralAnswerable(NatToString(SumOfMultiplesOf3(limit)));
    Exercise(
      "Lv." + IntToString(level) + " 挑战：复杂条件累加",
      "请编写代码，计算从 **1 到 " + IntToString(limit) + "** 中，所有能被 **3 整除**的整数之和，并打印结果。",
      "",
      NatToString(SumOfMultiplesOf3(limit)),
      ["使用 `for` 循环和 `range`", "在循环内使用 `if i % 3 == 0` 进行判断"],
      "# 难度递增: 筛选并求和\ntotal = 0\nfor i in range(1, " + IntToString(limit + 1)
        + "):\n    if i % 3 == 0:\n        total += i\nprint(total)")
  }

  /** The expected output of the sum question is the decimal numeral of the
      sum of the multiples of 3 in `1..limit`, which is `3k(k+1)/2` for
      `k = limit / 3` multiples. */
  lemma SumQuestionExpected(level: int)
    ensures var q := SumQuestion(level);
      && Canonical(q.expected)
      && ParseNat(q.expected) == SumOfMultiplesOf3(SumLimit(level))
      && (SumLimit(level) >= 0 ==>
            2 * ParseNat(q.expected) == 3 * (SumLimit(level) / 3) * (SumLimit(level) / 3 + 1))
      && (SumLimit(level) < 3 ==> q.expected == "0")
  {
    var limit := SumLimit(level);
    NatToStringRoundTrip(SumOfMultiplesOf3(limit));
    if limit >= 0 {
      SumOfMultiplesClosedForm(limit);
    }
    if limit < 3 {
      assert SumOfMultiplesOf3(limit) == 0;
    }
  }

  // ---------------------------------------------------------------------------
  // Generator 2: a square of stars
  // ---------------------------------------------------------------------------

  function SquareSize(level: int): int {
    (level - 5) + 3
  }

  /** `size` lines of `size` stars each. */
  function SquareRows(size: int): seq<string> {
    Repeat(Repeat('*', size), size)
  }

  /** The square question for a later level; printing its expected text
      answers it. */
  function SquareQuestion(level: int): (q: Exercise)
    ensures Answerable(q.expected)
  {
    var size := SquareSize(level);
    SquareAnswerable(size);
    Exercise(
      "Lv." + IntToString(level) + " 挑战：绘制正方形",
      "请使用循环，打印一个 **" + IntToString(size) + "x" + IntToString(size) + "** 的星号（`*`）正方形。",
      "",
      Join(SquareRows(size), "\n"),
      ["使用 range(" + IntToString(size) + ")", "在循环内使用 `print('*' * size)`"],
      "size = " + IntToString(size) + "\nfor i in range(size):\n    # 嵌套循环或打印\n    print(\"*\" * size)")
  }

  /** Cut at its newlines, the expected output of the square question is
      exactly `size` lines of exactly `size` stars; with no positive size it is empty. */
  lemma SquareQuestionRows(level: int)
    ensures var size := SquareSize(level);
      var e := SquareQuestion(level).expected;
      && (size >= 1 ==>
            var lines := Split(e, '\n');
            && |lines| == size
            && forall k :: 0 <= k < |lines| ==> |lines[k]| == size && forall j :: 0 <= j < size ==> lines[k][j] == '*')
      && (size < 1 ==> e == "")
  {
    var size := SquareSize(level);
    assert SquareQuestion(level).expected == Join(SquareRows(size), "\n");
    StarRows(size);
  }

  /** The rows of stars joined by newlines split back into those rows. */
  lemma StarRows(size: int)
    ensures var e := Join(SquareRows(size), "\n");
      && (size >= 1 ==>
            var lines := Split(e, '\n');
            && |lines| == size
            && forall k :: 0 <= k < |lines| ==> |lines[k]| == size && forall j :: 0 <= j < size ==> lines[k][j] == '*')
      && (size < 1 ==> e == "")
  {
    var rows := SquareRows(size);
    if size >= 1 {
      forall k | 0 <= k < |rows|
        ensures '\n' !in rows[k]
      {
        assert rows[k] == Repeat('*', size);
      }
      SplitJoin(rows, '\n');
    }
  }

  // ---------------------------------------------------------------------------
  // Generator 3: the floored average of a list
  // ---------------------------------------------------------------------------

  function AverageListLength(level: int): int {
    4 + level / 3
  }

  /** The numbers the average generator may draw for a level: the right count,
      each between 5 and 15. */
  predicate AverageDraw(level: int, nums: seq<int>) {
    && |nums| == AverageListLength(level)
    && forall k :: 0 <= k < |nums| ==> 5 <= nums[k] <= 15
  }

  function SumOf(nums: seq<int>): int
    decreases |nums|
  {
    if |nums| == 0 then 0 else nums[0] + SumOf(nums[1..])
  }

  /** A sum of `n` numbers each in `lo..hi` lies in `n*lo..n*hi`. */
  lemma {:induction false} SumOfBounds(nums: seq<int>, lo: int, hi: int)
    requires forall k :: 0 <= k < |nums| ==> lo <= nums[k] <= hi
    ensures |nums| * lo <= SumOf(nums) <= |nums| * hi
    decreases |nums|
  {
    if |nums| > 0 {
      SumOfBounds(nums[1..], lo, hi);
    }
  }

  /** Python's `int(sum(nums) / len(nums))` for positive numbers: the mean
      rounded down. */
  function FlooredMean(nums: seq<int>): int
    requires |nums| > 0
  {
    SumOf(nums) / |nums|
  }

  lemma MulCancelLess(a: int, b: int, n: int)
    requires n > 0 && a * n < b * n
    ensures a < b
  {
  }

  lemma DivBounds(total: int, n: int)
    requires n > 0
    ensures (total / n) * n <= total < (total / n) * n + n
  {
  }

  /** The floored mean `m` of numbers in `lo..hi` satisfies
      `m * len <= sum < (m + 1) * len` and lies in `lo..hi`. */
  lemma FlooredMeanBounds(nums: seq<int>, lo: int, hi: int)
    requires |nums| > 0
    requires forall k :: 0 <= k < |nums| ==> lo <= nums[k] <= hi
    ensures var m := FlooredMean(nums);
      && m * |nums| <= SumOf(nums) < (m + 1) * |nums|
      && lo <= m <= hi
  {
    var n := |nums|;
    var total := SumOf(nums);
    var m := total / n;
    SumOfBounds(nums, lo, hi);
    DivBounds(total, n);
    assert (m + 1) * n == m * n + n;
    assert (hi + 1) * n == hi * n + n;
    MulCancelLess(lo, m + 1, n);
    MulCancelLess(m, hi + 1, n);
  }

  /** The average question for a later level and the drawn numbers; printing
      its expected text answers it. */
  function AverageQuestion(level: int, nums: seq<int>): (q: Exercise)
    requires AverageDraw(level, nums) && |nums| > 0
    ensures Answerable(q.expected)
  {
    FlooredMeanBounds(nums, 5, 15);
    NumeralAnswerable(NatToString(FlooredMean(nums)));
    Exercise(
      "Lv." + IntToString(level) + " 挑战：列表平均值",
      "列表 `nums = " + ListRepr(nums) + "` 已定义。请编写代码计算列表中所有数字的**平均值**（取整数部分），并打印出来。",
      "nums = " + ListRepr(nums),
      IntToString(FlooredMean(nums)),
      ["先求和，再除以 `len(nums)`", "使用整数除法 `//`"],
      "nums = " + ListRepr(nums) + "\ntotal = 0\nfor n in nums:\n    total += n\n# 计算平均值并向下取整\navg = total // len(nums)\nprint(avg)")
  }

  /** The expected output of the average question is the floored mean: a
      numeral `a` with `a * len <= sum < (a + 1) * len`, between 5 and 15. */
  lemma AverageQuestionExpected(level: int, nums: seq<int>)
    requires AverageDraw(level, nums) && |nums| > 0
    ensures var e := AverageQuestion(level, nums).expected;
      && Canonical(e)
      && ParseNat(e) * |nums| <= SumOf(nums) < (ParseNat(e) + 1) * |nums|
      && 5 <= ParseNat(e) <= 15
  {
    var m := FlooredMean(nums);
    FlooredMeanBounds(nums, 5, 15);
    NatToStringRoundTrip(m);
    var e := AverageQuestion(level, nums).expected;
    assert e == NatToString(m);
    assert ParseNat(e) == m;
  }

  // ---------------------------------------------------------------------------
  // Generator 4: a word reversed and upper-cased
  // ---------------------------------------------------------------------------

  const Words: seq<string> := ["algorithm", "challenge", "programming", "openai", "python"]

  /** The reverse question for the drawn `word`, one of `Words`; for a
      non-empty lower-case word, printing its expected text answers it. */
  function ReverseQuestion(level: int, word: string): (q: Exercise)
    ensures AllLowerAscii(word) && |word| > 0 ==> Answerable(q.expected)
  {
    ShoutedAnswerable(word);
    Exercise(
      "Lv." + IntToString(level) + " 挑战：反转并大写",
      "变量 `word = '" + word + "'`。请编写代码将这个字符串**反转**后，再将所有字母转换为**大写**，并打印结果。",
      "word = '" + word + "'",
      Upper(Reverse(word)),
      ["使用 `[::-1]` 进行反转", "使用 `.upper()` 方法"],
      "word = '" + word + "'\n# 反转\nreversed_word = word[::-1]\n# 转大写\nfinal_result = reversed_word.upper()\nprint(final_result)")
  }

  lemma WordsAreLowerCase(word: string)
    requires word in Words
    ensures AllLowerAscii(word) && |word| > 0
  {
  }

  /** The expected output of the reverse question is the word read backwards in
      capitals: lower-casing and reversing it gives back the word. This holds
      for every lower-case word, the drawn ones among them. */
  lemma ReverseQuestionExpected(level: int, word: string)
    requires AllLowerAscii(word)
    ensures var e := ReverseQuestion(level, word).expected;
      && |e| == |word|
      && (forall k :: 0 <= k < |e| ==> IsUpperAscii(e[k]))
      && Reverse(Lower(e)) == word
  {
    UpperReverseCommute(word);
    LowerUndoesUpper(word);
    var u := Upper(word);
    assert Upper(Reverse(word)) == Reverse(u);
    assert Lower(Reverse(u)) == Reverse(Lower(u)) by {
      assert forall k :: 0 <= k < |u| ==> Lower(Reverse(u))[k] == Reverse(Lower(u))[k];
    }
    ReverseInvolutive(word);
  }

  // ---------------------------------------------------------------------------
  // Generator 5: counting the even numbers strictly between two bounds
  // ---------------------------------------------------------------------------

  function FilterLower(level: int): int {
    (level - 5) + 3
  }

  function FilterUpper(level: int): int {
    FilterLower(level) + 5
  }

  function FilterListLength(level: int): int {
    7 + level / 4
  }

  /** The numbers the filter generator may draw for a level: the right count,
      each between 1 and 15. */
  predicate FilterDraw(level: int, nums: seq<int>) {
    && |nums| == FilterListLength(level)
    && forall k :: 0 <= k < |nums| ==> 1 <= nums[k] <= 15
  }

  predicate Qualifies(n: int, lower: int, upper: int) {
    n > lower && n < upper && n % 2 == 0
  }

  /** How many elements of `nums` are even and strictly between the bounds. */
  function CountQualifying(nums: seq<int>, lower: int, upper: int): (c: nat)
    ensures c <= |nums|
    decreases |nums|
  {
    if |nums| == 0 then 0
    else (if Qualifies(nums[0], lower, upper) then 1 else 0) + CountQualifying(nums[1..], lower, upper)
  }

  /** The filter question for a later level and the drawn numbers; printing
      its expected text answers it. */
  function FilterQuestion(level: int, nums: seq<int>): (q: Exercise)
    ensures Answerable(q.expected)
  {
    var lower := FilterLower(level);
    var upper := FilterUpper(level);
    NumeralAnswerable(NatToString(CountQualifying(nums, lower, upper)));
    Exercise(
      "Lv." + IntToString(level) + " 挑战：复杂双重筛选",
      "列表 `nums = " + ListRepr(nums) + "`。请编写代码筛选出**大于 " + IntToString(lower) + " 且小于 "
        + IntToString(upper) + "，同时为偶数**的数字的个数，并打印结果。",
      "nums = " + ListRepr(nums) + "\nlower = " + IntToString(lower) + "\nupper = " + IntToString(upper),
      NatToString(CountQualifying(nums, lower, upper)),
      ["需要两个 `if` 条件或一个 `if` + `and`", "最后打印计数器的值"],
      "nums = " + ListRepr(nums) + "\nlower = " + IntToString(lower) + "\nupper = " + IntToString(upper)
        + "\ncount = 0\nfor n in nums:\n    if n > lower and n < upper:\n        if n % 2 == 0:\n            count += 1\nprint(count)")
  }

  /** The smaller of the two even numbers strictly between `lower` and `lower + 5`. */
  function FirstEvenAbove(lower: int): int {
    if lower % 2 == 0 then lower + 2 else lower + 1
  }

  /** Exactly two even integers lie strictly between `lower` and `lower + 5`. */
  lemma QualifiesIffOneOfTwo(n: int, lower: int)
    ensures Qualifies(n, lower, lower + 5) <==> n == FirstEvenAbove(lower) || n == FirstEvenAbove(lower) + 2
  {
    if lower < n < lower + 5 {
      assert n == lower + 1 || n == lower + 2 || n == lower + 3 || n == lower + 4;
    }
  }

  /** The filter count equals the number of occurrences in `nums` of the two
      even values inside the window, an independent way to compute it. */
  lemma {:induction false} CountIsOccurrences(nums: seq<int>, lower: int)
    ensures var e := FirstEvenAbove(lower);
      CountQualifying(nums, lower, lower + 5) == multiset(nums)[e] + multiset(nums)[e + 2]
    decreases |nums|
  {
    if |nums| > 0 {
      CountIsOccurrences(nums[1..], lower);
      QualifiesIffOneOfTwo(nums[0], lower);
      assert nums == [nums[0]] + nums[1..];
      assert multiset(nums) == multiset{nums[0]} + multiset(nums[1..]);
    }
  }

  /** The expected output of the filter question is the numeral of the count of
      drawn numbers that are even and strictly inside the window. */
  lemma FilterQuestionExpected(level: int, nums: seq<int>)
    ensures var e := FilterQuestion(level, nums).expected;
      var lower := FilterLower(level);
      var ev := FirstEvenAbove(lower);
      && FilterUpper(level) == lower + 5
      && Canonical(e)
      && ParseNat(e) == multiset(nums)[ev] + multiset(nums)[ev + 2]
      && ParseNat(e) <= |nums|
  {
    var lower := FilterLower(level);
    NatToStringRoundTrip(CountQualifying(nums, lower, lower + 5));
    CountIsOccurrences(nums, lower);
  }

  // ---------------------------------------------------------------------------
  // get_question
  // ---------------------------------------------------------------------------

  /** Which generator a later level uses, with the data it draws. */
  datatype Generator =
    | SumGen
    | SquareGen
    | AverageGen(nums: seq<int>)
    | ReverseGen(word: string)
    | FilterGen(nums: seq<int>)

  /** The random choices behind one question: the index into the fixed table
      (levels 1 to 5) or the generator and its data (later levels). */
  datatype Draw = Draw(choice: nat, generator: Generator)

  /** Choices the source's random calls can actually produce for `level`. */
  predicate ValidDraw(level: int, d: Draw) {
    if HasStatic(level) then d.choice < |StaticQuestions(level)|
    else match d.generator
      case SumGen => true
      case SquareGen => true
      case AverageGen(nums) => AverageDraw(level, nums) && |nums| > 0
      case ReverseGen(word) => word in Words
      case FilterGen(nums) => FilterDraw(level, nums)
  }

  /** The question a generator produces for `level` from its drawn data; each
      can be answered. */
  function Generate(level: int, g: Generator): (q: Exercise)
    requires !HasStatic(level) && ValidDraw(level, Draw(0, g))
    ensures Answerable(q.expected)
  {
    match g
    case SumGen => SumQuestion(level)
    case SquareGen => SquareQuestion(level)
    case AverageGen(nums) => AverageQuestion(level, nums)
    case ReverseGen(word) =>
      WordsAreLowerCase(word);
      ReverseQuestion(level, word)
    case FilterGen(nums) => FilterQuestion(level, nums)
  }

  /** Question for `level`: a table entry for levels 1 to 5, a generated one
      beyond. Every question it returns can be answered by printing its
      expected text. */
  function GetQuestion(level: int, d: Draw): (q: Exercise)
    requires level >= 1 && ValidDraw(level, d)
    ensures HasStatic(level) ==> q in StaticQuestions(level) && q == StaticQuestions(level)[d.choice]
    ensures !HasStatic(level) ==> q == Generate(level, d.generator)
    ensures Answerable(q.expected)
  {
    if HasStatic(level) then
      StaticAnswerable(level, d.choice);
      StaticQuestions(level)[d.choice]
    else
      Generate(level, d.generator)
  }

  lemma StaticAnswerable(level: int, i: nat)
    requires HasStatic(level) && i < |StaticQuestions(level)|
    ensures Answerable(StaticQuestions(level)[i].expected)
  {
    var e := StaticQuestions(level)[i].expected;
    assert e in {"Hello Python", "15", "2\n4", "gmail.com", "1", "8", "49"};
    TrimmedIsAnswerable(e);
  }

  /** A non-empty numeral has no whitespace at its ends. */
  lemma NumeralAnswerable(e: string)
    requires |e| > 0 && AllDigits(e)
    ensures Answerable(e)
  {
    assert IsDigit(e[0]) && IsDigit(e[|e| - 1]);
    TrimmedIsAnswerable(e);
  }

  /** A non-empty lower-case word reversed and upper-cased starts and ends
      with a capital, so it has no whitespace at its ends. */
  lemma ShoutedAnswerable(word: string)
    ensures AllLowerAscii(word) && |word| > 0 ==> Answerable(Upper(Reverse(word)))
  {
    if AllLowerAscii(word) && |word| > 0 {
      var w := Reverse(word);
      var e := Upper(w);
      assert IsLowerAscii(w[0]) && IsLowerAscii(w[|w| - 1]);
      assert IsUpperAscii(e[0]) && IsUpperAscii(e[|e| - 1]);
      TrimmedIsAnswerable(e);
    }
  }

  lemma JoinEnds(parts: seq<string>, sep: string)
    requires |parts| > 0
    ensures var j := Join(parts, sep);
      && |parts[0]| <= |j| && j[..|parts[0]|] == parts[0]
      && |parts[|parts| - 1]| <= |j| && j[|j| - |parts[|parts| - 1]|..] == parts[|parts| - 1]
    decreases |parts|
  {
    if |parts| > 1 {
      JoinEnds(parts[1..], sep);
    }
  }

  /** The square of stars starts and ends with a star, or is empty. */
  lemma SquareAnswerable(size: int)
    ensures Answerable(Join(SquareRows(size), "\n"))
  {
    var rows := SquareRows(size);
    var e := Join(rows, "\n");
    if size >= 1 {
      JoinEnds(rows, "\n");
      assert rows[0] == Repeat('*', size) && rows[|rows| - 1] == Repeat('*', size);
      assert e[0] == rows[0][0];
      assert e[|e| - 1] == rows[|rows| - 1][size - 1];
    }
    TrimmedIsAnswerable(e);
  }
}

=== FILE: scenarios.dfy ===
/** Worked examples on the level-1 apple-price question (preset code
    `price = 5` and `count = 3`, expected output "15"), and on navigation. */
module Scenarios {
  import opened Text
  import opened Exercises
  import opened Evaluator
  import opened QuestionBank
  import opened Controller
  import opened Display
  import opened Machine

  const Times: string := "print(price*count)"
  const Plus: string := "print(price+count)"
  const Unclosed: string := "print(price*count"

  /** The program run for `code` on the apple-price question. */
  function Program(code: string): string {
    FullCode(Level1Q2.preCode, code)
  }

  /** What Python does with the three programs below: the first prints 15, the
      second prints 8, and anything else (the third has an unclosed
      parenthesis) does not parse. */
  function Python(program: string): ExecOutcome {
    if program == Program(Times) then Output(Line("15"))
    else if program == Program(Plus) then Output(Line("8"))
    else SyntaxErr("'(' was never closed")
  }

  /** The three programs differ from one another. */
  lemma ProgramsDiffer()
    ensures Program(Plus) != Program(Times)
    ensures Program(Unclosed) != Program(Times) && Program(Unclosed) != Program(Plus)
  {
    var n := |Level1Q2.preCode| + 1;
    assert Program(Plus)[n..] == Plus && Program(Times)[n..] == Times;
    assert Plus[11] != Times[11];
    assert Program(Unclosed)[n..] == Unclosed;
    assert |Unclosed| != |Times| && |Unclosed| != |Plus|;
  }

  /** A fresh session on the apple-price question with `code` typed in. */
  function ApplePrice(code: string): (s: Session)
    ensures Inv(s) && !SubmitDisabled(s) && s.live.errorCount == 0 && !s.live.solved
  {
    var u := Untouched.(code := code);
    Session(1, 0, [Entry(Level1Q2, u)], 0, u)
  }

  /** What `print(text)` writes: the text and a newline. */
  function Line(text: string): string {
    text + "\n"
  }

  /** A printed line is judged without its newline: correct when the text is
      the expected one, a mismatch carrying the text otherwise. */
  lemma PrintedLineVerdict(text: string, expected: string)
    requires |text| > 0 && !IsSpace(text[0]) && !IsSpace(text[|text| - 1])
    ensures Judge(Output(Line(text)), expected) == if text == expected then Correct else Mismatch(text)
  {
    StripIgnoresTrailing(text, "\n");
    TrimmedIsAnswerable(text);
  }

  /** What the two printing programs print. */
  lemma ProgramsPrint()
    ensures Python(Program(Times)) == Output(Line("15"))
    ensures Python(Program(Plus)) == Output(Line("8"))
  {
    ProgramsDiffer();
  }

  /** `print(price*count)` prints 15: correct, solved, no errors. */
  lemma TimesIsCorrect()
    ensures Judge(Python(Program(Times)), Level1Q2.expected) == Correct
    ensures var r := Submit(ApplePrice(Times), Python);
      r.live.solved && r.live.errorCount == 0
  {
    ProgramsPrint();
    PrintedLineVerdict("15", "15");
  }

  /** `print(price+count)` prints 8: a mismatch carrying "8". */
  lemma PlusIsMismatch()
    ensures Judge(Python(Program(Plus)), Level1Q2.expected) == Mismatch("8")
  {
    ProgramsPrint();
    PrintedLineVerdict("8", "15");
  }

  /** Submitting `print(price+count)` on the apple-price question adds one
      error, and solves the question only by reaching the limit. */
  lemma PlusSubmit(s: Session)
    requires CursorValid(s) && Current(s).question == Level1Q2 && s.live.code == Plus
    ensures var r := Submit(s, Python);
      r.live.errorCount == s.live.errorCount + 1
      && (r.live.solved <==> s.live.solved || r.live.errorCount >= 3)
  {
    assert FullCode(Current(s).question.preCode, s.live.code) == Program(Plus);
    PlusIsMismatch();
  }

  /** The apple-price session with the page its first run draws. */
  function AppleScreen(code: string): (v: Screen)
    ensures ScreenInv(v) && v.page.inputOpen && v.page.lowerShown
  {
    var s := ApplePrice(code);
    Screen(s, Render(s))
  }

  /** A click on submit while the page offers it is a submission. */
  lemma SubmitClick(v: Screen)
    requires ScreenInv(v) && v.page.inputOpen
    ensures Act(v, SubmitCode(Python)).session == Submit(v.session, Python)
  {
  }

  /** Three submissions of `print(price+count)` in a row leave the question
      solved with three errors, and the third one stops the run before the
      navigation is drawn. */
  lemma PlusThreeTimes()
    ensures var r := Run(AppleScreen(Plus), [SubmitCode(Python), SubmitCode(Python), SubmitCode(Python)]);
      r.session.live.solved && r.session.live.errorCount == 3 && !r.page.lowerShown
  {
    var a := SubmitCode(Python);
    var v0 := AppleScreen(Plus);
    PlusSubmit(v0.session);
    SubmitClick(v0);
    var v1 := Act(v0, a);
    PlusSubmit(v1.session);
    SubmitClick(v1);
    var v2 := Act(v1, a);
    PlusSubmit(v2.session);
    SubmitClick(v2);
    PlusIsMismatch();
    var v3 := Act(v2, a);
    assert v3.session.live.solved && v3.session.live.errorCount == 3;
    assert !v3.page.lowerShown;
    assert Run(v3, []) == v3;
    assert Run(v2, [a]) == v3;
    assert Run(v1, [a, a]) == v3 by { assert [a, a][1..] == [a]; }
    assert Run(v0, [a, a, a]) == v3 by { assert [a, a, a][1..] == [a, a]; }
  }

  /** An unclosed parenthesis is a syntax error: one error, still unsolved. */
  lemma UnclosedIsSyntaxError()
    ensures Judge(Python(Program(Unclosed)), Level1Q2.expected).SyntaxFailure?
    ensures var r := Submit(ApplePrice(Unclosed), Python);
      !r.live.solved && r.live.errorCount == 1
  {
    ProgramsDiffer();
  }

  /** From a solved latest entry of a three-entry history, advancing appends a
      fourth, untouched entry for the drawn question one level up and moves
      onto it. */
  lemma AdvanceScenario(s: Session, q: Exercise)
    requires Synced(s) && |s.history| == 3 && s.cursor == 2 && s.live.solved
    ensures var r := Advance(s, q);
      |r.history| == 4 && r.level == s.level + 1 && r.cursor == 3
      && r.history[..3] == s.history && r.history[3] == NewEntry(q)
  {
    SaveSyncedIsIdentity(s);
  }

  /** On the middle entry of a three-entry history, previous then next comes
      back to the very same session. */
  lemma ReviewScenario(s: Session)
    requires Synced(s) && |s.history| == 3 && s.cursor == 1
    ensures Previous(s).cursor == 0 && Next(Previous(s)) == s
  {
    PreviousThenNext(s);
  }
}

=== FILE: text.dfy ===
/** The handful of Python string operations the quiz relies on: `str.strip()`,
    `str(int)`, `"*" * n`, `sep.join(parts)`, `str.split(sep)`, `s[::-1]`,
    `str.upper()` on ASCII letters and the `repr` of a list of integers. */
module Text {

  // ---------------------------------------------------------------------------
  // Whitespace and str.strip()
  // ---------------------------------------------------------------------------

  /** The characters for which Python's `str.isspace()` holds; these are exactly
      the characters `str.strip()` with no argument removes. */
  predicate IsSpace(c: char) {
    var n := c as int;
    || 9 <= n <= 13                      // \t \n \v \f \r
    || 28 <= n <= 32                     // \x1c-\x1f and ' '
    || n == 0x85 || n == 0xA0 || n == 0x1680
    || 0x2000 <= n <= 0x200A
    || n == 0x2028 || n == 0x2029 || n == 0x202F || n == 0x205F || n == 0x3000
  }

  /** `s.lstrip()`: `s` without its leading whitespace. */
  function LStrip(s: string): (r: string)
    ensures |r| <= |s|
    decreases |s|
  {
    if |s| > 0 && IsSpace(s[0]) then LStrip(s[1..]) else s
  }

  /** `s.rstrip()`: `s` without its trailing whitespace. */
  function RStrip(s: string): (r: string)
    ensures |r| <= |s|
    decreases |s|
  {
    if |s| > 0 && IsSpace(s[|s| - 1]) then RStrip(s[..|s| - 1]) else s
  }

  /** `LStrip(s)` is the longest suffix of `s` that does not start with
      whitespace: everything it drops is whitespace. */
  lemma {:induction false} LStripSpec(s: string)
    ensures var r := LStrip(s);
      && r == s[|s| - |r|..]
      && (forall k :: 0 <= k < |s| - |r| ==> IsSpace(s[k]))
      && (|r| > 0 ==> !IsSpace(r[0]))
    decreases |s|
  {
    if |s| > 0 && IsSpace(s[0]) {
      LStripSpec(s[1..]);
      var r := LStrip(s);
      forall k | 0 <= k < |s| - |r| ensures IsSpace(s[k]) {
        if k > 0 { assert s[k] == s[1..][k - 1]; }
      }
    }
  }

  /** `RStrip(s)` is the longest prefix of `s` that does not end with
      whitespace: everything it drops is whitespace. */
  lemma {:induction false} RStripSpec(s: string)
    ensures var r := RStrip(s);
      && r == s[..|r|]
      && (forall k :: |r| <= k < |s| ==> IsSpace(s[k]))
      && (|r| > 0 ==> !IsSpace(r[|r| - 1]))
    decreases |s|
  {
    if |s| > 0 && IsSpace(s[|s| - 1]) {
      RStripSpec(s[..|s| - 1]);
      var r := RStrip(s);
      forall k | |r| <= k < |s| ensures IsSpace(s[k]) {
        if k < |s| - 1 { assert s[k] == s[..|s| - 1][k]; }
      }
    }
  }

  /** Text with no whitespace at either end. */
  predicate Trimmed(s: string) {
    |s| > 0 ==> !IsSpace(s[0]) && !IsSpace(s[|s| - 1])
  }

  /** `s.strip()`: whitespace removed from both ends. */
  function Strip(s: string): (r: string)
    ensures |r| <= |s|
    ensures Trimmed(r)
  {
    var t := RStrip(s);
    RStripSpec(s);
    LStripSpec(t);
    LStrip(t)
  }

  /** All characters of `s` are whitespace. */
  predicate AllSpace(s: string) {
    forall k :: 0 <= k < |s| ==> IsSpace(s[k])
  }

  lemma AllSpaceConcat(a: string, b: string)
    requires AllSpace(a) && AllSpace(b)
    ensures AllSpace(a + b)
  {
    forall k | 0 <= k < |a + b| ensures IsSpace((a + b)[k]) {
      if k < |a| { assert (a + b)[k] == a[k]; } else { assert (a + b)[k] == b[k - |a|]; }
    }
  }

  /** `Strip(s)` is the slice `s[a..b]` when everything before `a` and from
      `b` on is whitespace and the slice is trimmed. */
  lemma {:induction false} StripBetween(s: string, a: nat, b: nat)
    requires a <= b <= |s|
    requires forall k :: 0 <= k < a ==> IsSpace(s[k])
    requires forall k :: b <= k < |s| ==> IsSpace(s[k])
    requires a < b ==> !IsSpace(s[a]) && !IsSpace(s[b - 1])
    ensures Strip(s) == s[a..b]
  {
    var t := RStrip(s);
    RStripSpec(s);
    LStripSpec(t);
    if a < b {
      assert |t| == b;
      assert t == s[..b];
    }
  }

  /** A reference description of `strip`: whitespace, then a trimmed core,
      then whitespace, strips to exactly the core. */
  lemma {:induction false} StripUnique(pre: string, core: string, post: string)
    requires AllSpace(pre) && AllSpace(post) && Trimmed(core)
    ensures Strip(pre + core + post) == core
  {
    var s := pre + core + post;
    var a := |pre|;
    var b := a + |core|;
    forall k | 0 <= k < a ensures IsSpace(s[k]) {
      assert s[k] == pre[k];
    }
    forall k | b <= k < |s| ensures IsSpace(s[k]) {
      assert s[k] == post[k - b];
    }
    if a < b {
      assert s[a] == core[0] && s[b - 1] == core[|core| - 1];
    }
    assert s[a..b] == core;
    StripBetween(s, a, b);
  }

  /** The other direction: every text is whitespace, its stripped form, and
      whitespace, in that order. */
  lemma {:induction false} StripCore(t: string) returns (pre: string, post: string)
    ensures t == pre + Strip(t) + post
    ensures AllSpace(pre) && AllSpace(post)
  {
    var r := RStrip(t);
    var c := LStrip(r);
    RStripSpec(t);
    LStripSpec(r);
    var i := |r| - |c|;
    pre := t[..i];
    post := t[|r|..];
    assert forall k :: 0 <= k < i ==> pre[k] == r[k];
    assert t == pre + c + post by {
      assert t == t[..|r|] + post;
      assert t[..|r|] == r == r[..i] + c;
    }
  }

  /** Stripping twice is stripping once. */
  lemma {:induction false} StripIdempotent(s: string)
    ensures Strip(Strip(s)) == Strip(s)
  {
    var r := Strip(s);
    assert [] + r + [] == r;
    StripUnique([], r, []);
  }

  /** Leading whitespace does not change the stripped text. */
  lemma {:induction false} StripIgnoresLeading(lead: string, t: string)
    requires AllSpace(lead)
    ensures Strip(lead + t) == Strip(t)
  {
    var pre, post := StripCore(t);
    var c := Strip(t);
    assert lead + t == (lead + pre) + c + post;
    AllSpaceConcat(lead, pre);
    StripUnique(lead + pre, c, post);
  }

  /** Trailing whitespace does not change the stripped text. */
  lemma {:induction false} StripIgnoresTrailing(t: string, trail: string)
    requires AllSpace(trail)
    ensures Strip(t + trail) == Strip(t)
  {
    var pre, post := StripCore(t);
    var c := Strip(t);
    assert t + trail == pre + c + (post + trail);
    AllSpaceConcat(post, trail);
    StripUnique(pre, c, post + trail);
  }

  /** Surrounding whitespace does not change the stripped text. */
  lemma {:induction false} StripIgnoresPadding(lead: string, t: string, trail: string)
    requires AllSpace(lead) && AllSpace(trail)
    ensures Strip(lead + t + trail) == Strip(t)
  {
    assert lead + t + trail == lead + (t + trail);
    StripIgnoresLeading(lead, t + trail);
    StripIgnoresTrailing(t, trail);
  }

  // ---------------------------------------------------------------------------
  // Decimal numerals: str(int)
  // ---------------------------------------------------------------------------

  predicate IsDigit(c: char) {
    '0' <= c <= '9'
  }

  predicate AllDigits(s: string) {
    forall k :: 0 <= k < |s| ==> IsDigit(s[k])
  }

  function DigitChar(d: nat): (c: char)
    requires d < 10
    ensures IsDigit(c)
  {
    (d + '0' as int) as char
  }

  function DigitValue(c: char): (d: nat)
    requires IsDigit(c)
    ensures d < 10
  {
    c as int - '0' as int
  }

  /** A numeral as `str` writes a natural number: at least one digit, and no
      leading zero unless the numeral is "0" itself. */
  predicate Canonical(s: string) {
    |s| > 0 && AllDigits(s) && (s[0] == '0' ==> s == "0")
  }

  /** `str(n)` for a non-negative integer: decimal digits, no leading zero. */
  function NatToString(n: nat): (r: string)
    ensures Canonical(r)
    ensures r[0] == '0' <==> n == 0
    decreases n
  {
    if n < 10 then [DigitChar(n)] else NatToString(n / 10) + [DigitChar(n % 10)]
  }

  /** The value of a string of decimal digits, the partner of `NatToString`. */
  function ParseNat(s: string): nat
    requires AllDigits(s)
    decreases |s|
  {
    if |s| == 0 then 0 else ParseNat(s[..|s| - 1]) * 10 + DigitValue(s[|s| - 1])
  }

  /** Reading back a printed natural number yields the number. */
  lemma {:induction false} NatToStringRoundTrip(n: nat)
    ensures ParseNat(NatToString(n)) == n
    decreases n
  {
    if n >= 10 {
      var t := NatToString(n / 10);
      var s := NatToString(n);
      assert s == t + [DigitChar(n % 10)];
      assert s[..|s| - 1] == t;
      NatToStringRoundTrip(n / 10);
    }
  }

  /** Distinct numbers print differently. */
  lemma NatToStringInjective(m: nat, n: nat)
    requires NatToString(m) == NatToString(n)
    ensures m == n
  {
    NatToStringRoundTrip(m);
    NatToStringRoundTrip(n);
  }

  /** A canonical numeral is the only text `str` writes for its value, so a
      canonical numeral with the right value is the right text. */
  lemma {:induction false} CanonicalIsStr(s: string)
    requires Canonical(s)
    ensures s == NatToString(ParseNat(s))
    decreases |s|
  {
    var d := s[|s| - 1];
    if |s| == 1 {
      assert ParseNat(s) == DigitValue(d) by {
        assert s[..0] == [];
      }
      assert NatToString(ParseNat(s)) == [DigitChar(DigitValue(d))];
    } else {
      var t := s[..|s| - 1];
      assert t[0] == s[0];
      assert s[0] != '0';
      CanonicalIsStr(t);
      var m := ParseNat(t);
      assert m != 0;
      var n := ParseNat(s);
      assert n == m * 10 + DigitValue(d);
      assert n / 10 == m && n % 10 == DigitValue(d);
      assert NatToString(n) == NatToString(m) + [DigitChar(DigitValue(d))];
      assert s == t + [d];
    }
  }

  /** `str(i)` for any integer. */
  function IntToString(i: int): (r: string)
    ensures i >= 0 ==> r == NatToString(i)
    ensures i < 0 ==> |r| > 1 && r[0] == '-' && r[1..] == NatToString(-i)
  {
    if i < 0 then "-" + NatToString(-i) else NatToString(i)
  }

  // ---------------------------------------------------------------------------
  // Repetition, joining and splitting
  // ---------------------------------------------------------------------------

  /** Python's `[x] * n`, and `c * n` for a one-character string `c`:
      `n` copies of `x`, none when `n <= 0`. */
  function Repeat<T>(x: T, n: int): (r: seq<T>)
    ensures |r| == if n <= 0 then 0 else n
    ensures forall k :: 0 <= k < |r| ==> r[k] == x
    decreases n
  {
    if n <= 0 then [] else [x] + Repeat(x, n - 1)
  }

  /** `sep.join(parts)`. */
  function Join(parts: seq<string>, sep: string): string
    decreases |parts|
  {
    if |parts| == 0 then ""
    else if |parts| == 1 then parts[0]
    else parts[0] + sep + Join(parts[1..], sep)
  }

  /** Position of the first `c` in `s`, or `|s|` when there is none. */
  function IndexOf(s: string, c: char): (i: nat)
    ensures i <= |s|
    ensures forall k :: 0 <= k < i ==> s[k] != c
    ensures i < |s| ==> s[i] == c
    decreases |s|
  {
    if |s| == 0 then 0 else if s[0] == c then 0 else 1 + IndexOf(s[1..], c)
  }

  /** `s.split(c)` for a one-character separator. */
  function Split(s: string, c: char): (r: seq<string>)
    ensures |r| > 0
    ensures forall k :: 0 <= k < |r| ==> c !in r[k]
    decreases |s|
  {
    var i := IndexOf(s, c);
    if i == |s| then [s] else [s[..i]] + Split(s[i + 1..], c)
  }

  lemma IndexOfAfterPrefix(a: string, c: char, b: string)
    requires c !in a
    ensures IndexOf(a + [c] + b, c) == |a|
  {
    var s := a + [c] + b;
    var i := IndexOf(s, c);
    assert s[|a|] == c;
  }

  /** Splitting a join recovers the parts, provided no part holds the separator. */
  lemma {:induction false} SplitJoin(parts: seq<string>, c: char)
    requires |parts| > 0
    requires forall k :: 0 <= k < |parts| ==> c !in parts[k]
    ensures Split(Join(parts, [c]), c) == parts
    decreases |parts|
  {
    if |parts| == 1 {
      var s := parts[0];
      assert Join(parts, [c]) == s;
    } else {
      var rest := Join(parts[1..], [c]);
      var s := parts[0] + [c] + rest;
      assert Join(parts, [c]) == s;
      IndexOfAfterPrefix(parts[0], c, rest);
      assert s[..|parts[0]|] == parts[0];
      assert s[|parts[0]| + 1..] == rest;
      SplitJoin(parts[1..], c);
      assert Split(s, c) == [parts[0]] + parts[1..];
    }
  }

  /** Joining a split recovers the text. */
  lemma {:induction false} JoinSplit(s: string, c: char)
    ensures Join(Split(s, c), [c]) == s
    decreases |s|
  {
    var i := IndexOf(s, c);
    if i < |s| {
      var tail := Split(s[i + 1..], c);
      var parts := Split(s, c);
      assert parts == [s[..i]] + tail;
      assert parts[1..] == tail;
      JoinSplit(s[i + 1..], c);
      assert Join(parts, [c]) == s[..i] + [c] + s[i + 1..];
      assert s == s[..i] + [c] + s[i + 1..];
    }
  }

  // ---------------------------------------------------------------------------
  // Reversal and ASCII case mapping
  // ---------------------------------------------------------------------------

  /** `s[::-1]`. */
  function Reverse<T>(s: seq<T>): (r: seq<T>)
    ensures |r| == |s|
    ensures forall k :: 0 <= k < |s| ==> r[k] == s[|s| - 1 - k]
    decreases |s|
  {
    if |s| == 0 then [] else Reverse(s[1..]) + [s[0]]
  }

  lemma ReverseInvolutive<T>(s: seq<T>)
    ensures Reverse(Reverse(s)) == s
  {
    var r := Reverse(Reverse(s));
    assert forall k :: 0 <= k < |s| ==> r[k] == s[k];
  }

  predicate IsLowerAscii(c: char) {
    'a' <= c <= 'z'
  }

  predicate IsUpperAscii(c: char) {
    'A' <= c <= 'Z'
  }

  function UpperChar(c: char): char {
    if IsLowerAscii(c) then (c as int - 32) as char else c
  }

  function LowerChar(c: char): char {
    if IsUpperAscii(c) then (c as int + 32) as char else c
  }

  /** `s.upper()` restricted to ASCII letters. */
  function Upper(s: string): (r: string)
    ensures |r| == |s|
  {
    seq(|s|, k requires 0 <= k < |s| => UpperChar(s[k]))
  }

  /** `s.lower()` restricted to ASCII letters. */
  function Lower(s: string): (r: string)
    ensures |r| == |s|
  {
    seq(|s|, k requires 0 <= k < |s| => LowerChar(s[k]))
  }

  predicate AllLowerAscii(s: string) {
    forall k :: 0 <= k < |s| ==> IsLowerAscii(s[k])
  }

  /** Upper-casing a lower-case ASCII word loses nothing. */
  lemma LowerUndoesUpper(s: string)
    requires AllLowerAscii(s)
    ensures Lower(Upper(s)) == s
    ensures forall k :: 0 <= k < |s| ==> IsUpperAscii(Upper(s)[k])
  {
    assert forall k :: 0 <= k < |s| ==> Lower(Upper(s))[k] == s[k];
  }

  /** Case mapping and reversal commute. */
  lemma UpperReverseCommute(s: string)
    ensures Upper(Reverse(s)) == Reverse(Upper(s))
  {
    assert forall k :: 0 <= k < |s| ==> Upper(Reverse(s))[k] == Reverse(Upper(s))[k];
  }

  // ---------------------------------------------------------------------------
  // repr of a list of integers
  // ---------------------------------------------------------------------------

  /** `str(nums)` for a list of integers, e.g. `[5, 12, 7]`. */
  function ListRepr(nums: seq<int>): string {
    "[" + Join(seq(|nums|, k requires 0 <= k < |nums| => IntToString(nums[k])), ", ") + "]"
  }
}

=== FILE: wrappers.dfy ===
/** Optional values and results with an error, used for dictionary lookups
    that may miss and for start-up that may fail. */
module Wrappers {

  datatype Option<+T> = None | Some(value: T) {

    /** The value, or `default` when absent (Python's `dict.get(key, default)`). */
    function GetOr(default: T): T {
      match this
      case Some(v) => v
      case None => default
    }
  }

  datatype Result<+T, +E> = Success(value: T) | Failure(error: E)
}
